=== FILE: README.md ===
# Instagram DM drip bot — a Dafny model of its decision core

This project models the part of the outreach bot that decides, lead row by lead row, whether to send a message and what to write back to the spreadsheet:

- the drip schedule (`DripEngine`): should a row get its next message today, which number that message has, and whether it ends the sequence;
- the layered orchestrator of `main.py` (`Orchestrator`):
  - the skip filter and username extraction;
  - the daily cap;
  - the `"sending..."` checkpoint written before each send;
  - the status, number and date written after a successful send;
  - the loop over the lead rows, which stops at the cap and logs a row's exception without stopping;
- what the next run reads back from a row after this run wrote to it (`NextRun`);
- the rate limiter's validation and delay range (`RateLimiter`), and the counters of `Metrics`;
- the sheet handler (`SheetsService`): the records `get_all_records()` yields from a grid of cells, the header-name resolution and cell-by-cell writes of `update_lead_fields`, and `find_row_by_username`;
- the messaging client's logged-in flag, profile filter and test-mode send (`InstagramService`);
- the keyword niche classifiers and the model-reply fallback (`Keywords`, `AiEngine`);
- the earlier single-script bot `instagramdm.py` (`LegacyBot`): its skip rule, per-run username dedup, text acceptance rule and bounded retry of the status write.

Python's string and date primitives that the logic depends on are modelled in `Strings`, `Dates` and `Urls`:

- `strip`, `rstrip`, `split`, `lower` and `int()`;
- `strptime("%Y-%m-%d")` and `strftime("%Y-%m-%d")`;
- day differences, computed from the proleptic Gregorian ordinal.

Everything outside the process is an oracle passed in as a parameter. This covers the session login, `user_info_by_username`, `direct_send`, the generative model's reply, the spreadsheet's failures and the random draw. Today's date is a parameter too. `World` holds these for the layered version, indexed by lead position; `LegacyWorld` holds them for the single script. The sheet is a value, `Grid`: row 1 holds the headers, and lead `i` is sheet row `i + 2`. A worksheet is a rectangle, so every row of a `Grid` is as wide as the header row, and a blank cell holds the empty text. A write to any header's column of a lead's row therefore lands, however many of that row's trailing cells are blank.

Where `main.py` does not match the classes it calls, the model follows the evident intent. The doc comment of `Orchestrator` lists each mismatch:

- the settings are read off the `config` module;
- the limiter is built with the wrong keyword names;
- it increments `metrics.skipped`, `metrics.sent` and `metrics.failed`, which `Metrics` does not define;
- it imports a service module that is not part of this model.

Where the layered code and the single script differ, the model keeps each as written:

- `generate_custom_dm` in `modules/ai_engine.py` uses the stripped reply even when it is empty or 1000 characters or longer. Only `instagramdm.py` bounds the text, and there it must be non-empty and strictly shorter than 1000 characters.
- `generate_custom_dm` takes only the bio. The drip template `main.py` looks up (main.py:84-86) reaches only the `Compose` event.
- The layered client's `get_valid_user` checks only the follower band and privacy. The engagement rate belongs to `instagramdm.py`'s `is_valid_user`.
- `should_send` parses the message number before it looks at the status. A terminal row with a malformed number therefore raises instead of returning false.

## Model

| member | source | states |
|---|---|---|
| `DripEngine.MessageNumber` | modules/core/drip_engine.py:12 | a missing or falsy field reads as 0, a number as itself, and non-empty text that `int()` accepts as the integer it denotes; it is an error exactly when the field holds non-empty text that `int()` rejects |
| `DripEngine.LastDate` | modules/core/drip_engine.py:24-27 | no date exactly when the field is missing or falsy; a date read is always a real calendar date |
| `DripEngine.ShouldSend` | modules/core/drip_engine.py:10-30 | every row gets a decision: a malformed number raises; a terminal status or a number at or past `max_sequence` says no; number 0 on a live row says yes; any other number below `max_sequence`, negative ones included, with no last date says yes, with a malformed last date raises, and with a last date says yes exactly when at least `delay_days` days have passed since it |
| `DripEngine.NextMessageNumber` | modules/core/drip_engine.py:32-33 | defined exactly when the stored number parses, and then it is that number plus one, whatever the status |
| `DripEngine.DueExactlyAfterDelay` | modules/core/drip_engine.py:27-30 | with a live row and a non-zero number below `max_sequence`, negative ones included, the row is due exactly when at least `delay_days` whole days separate today from the stored date |
| `DripEngine.MalformedDateRaises` | modules/core/drip_engine.py:24-27 | for a live row with a non-zero number below `max_sequence`, a stored date that is a number, or text that is not a `%Y-%m-%d` date, is an error and not a "no" |
| `DripEngine.SentNumberWithinSequence` | modules/core/drip_engine.py:18-36 | a message sent because the row was due has a number of at most `max_sequence`, and `mark_completed` holds for it exactly when it equals `max_sequence` |
| `DripEngine.ThreeDayBoundary` | modules/core/drip_engine.py:27-30 | with the default three-day delay, a date three days back is due and one two days back is not |
| `DripEngine.ShouldSendReadsDripFields` | modules/core/drip_engine.py:10-30 | two rows that agree on the message number, the last date and whether the status is terminal get the same decision |
| `Strings.ParseIntOfDecimal` | modules/core/drip_engine.py:12 | `int()` reads back every integer `str()` wrote, so a stored message number is read as the number written |
| `Strings.StripIgnoresSurroundingSpace` | main.py:54 | white space added around a string does not change what `strip()` returns |
| `Dates.ParseDate` | modules/core/drip_engine.py:27 | whatever `strptime("%Y-%m-%d")` accepts is a date that exists |
| `Dates.ParseFormatRoundTrip` | main.py:104 | the date written with `strftime("%Y-%m-%d")` parses back to the same date for years from 1000 on |
| `Dates.YearLength` | modules/core/drip_engine.py:28 | the ordinal of January 1 moves by 366 over a leap year and by 365 over any other |
| `Dates.NextDayIsOneLater` | modules/core/drip_engine.py:28 | the day after a date is a date, and its ordinal is one more, so ordinal differences count whole days |
| `Urls.Username` | main.py:54 | the username has no `/`, and it is the tail of the stripped URL without trailing slashes, after its last `/` or the whole of it |
| `Urls.UsernameIgnoresTrailingSlashes` | main.py:54 | appending slashes to the stripped URL does not change the username |
| `Urls.UsernameIgnoresSurroundingSpace` | main.py:54 | white space around the URL does not change the username |
| `Orchestrator.ShouldSkip` | main.py:56-64 | a lead is skipped exactly when its URL is missing or falsy or its lowercased status is "completed", "replied" or "messaged ✅" |
| `DripEngine.MarkCompleted` | modules/core/drip_engine.py:35-36 | the message numbered n completes the sequence exactly when n is at or past `max_sequence` |
| `Strings.ParseInt` | modules/core/drip_engine.py:12 | `int()` of text: surrounding white space stripped, an optional sign, then one or more ASCII digits; anything else is no integer |
| `Dates.FormatDate` | main.py:104 | `strftime("%Y-%m-%d")`: the unpadded year, then the month and day padded to two digits, joined by dashes |
| `Rows.NumberStatusIsNotAWord` | main.py:60 | a numeric status renders as digits and never equals a word status such as "completed" |
| `RateLimiter.New` | modules/core/rate_limiter.py:5-18 | construction succeeds exactly when 0 <= min <= max, keeping both bounds; a negative bound gives the non-negative error, min > max the ordering error |
| `RateLimiter.Delay` | modules/core/rate_limiter.py:20-22 | every delay `wait` sleeps lies in [min, max], and the limiter itself is a value that does not change |
| `RateLimiter.EveryDelayPossible` | modules/core/rate_limiter.py:21 | every whole number of seconds in [min, max] is a delay some random draw gives |
| `RateLimiter.ConfiguredBounds` | modules/core/rate_limiter.py:5-18 | the configured 45 to 120 seconds is accepted; 10 to 5 is refused with the ordering error |
| `Metrics.Init` | modules/metrics.py:2-6 | all four counters start at zero |
| `Metrics.RecordAttempt` | modules/metrics.py:8-13 | one more attempt, and exactly one of successes or failures moves, as the flag says; replies are left alone |
| `Metrics.RecordReply` | modules/metrics.py:15-16 | only the reply counter moves, by one |
| `Metrics.MakeReport` | modules/metrics.py:18-24 | the counters are reported as they stand; the reply rate is the `Zero` case exactly when there are no successful sends, and otherwise replies times 100 over successes |
| `Metrics.ReplayCounts` | modules/metrics.py:8-16 | after any sequence of calls, attempts equal successes plus failures, and each counter counts exactly its own calls |
| `SheetsService.FirstIndex` | modules/services/sheets_service.py:43 | `headers.index(key)`: no position exactly when the key is not a header, otherwise the first position holding it |
| `SheetsService.UpdateLeadFields` | modules/services/sheets_service.py:33-53 | only the given row can change, and in it only the columns of named headers; a header read failure returns false with nothing written; true exactly when every write goes through, and then each named header's first column holds its value |
| `SheetsService.WriteCells` | modules/services/sheets_service.py:46-47 | the write loop reports success exactly when every entry's write goes through, and touches nothing outside the row or the targeted columns |
| `SheetsService.WriteCellsLands` | modules/services/sheets_service.py:46-53 | an entry whose write, and every earlier one, went through holds its value even when a later write raised, so a failure can leave earlier cells written |
| `SheetsService.UnknownKeysChangeNothing` | modules/services/sheets_service.py:41-49 | an update map none of whose keys is a header leaves the sheet as it was and returns true |
| `SheetsService.LeadRowWriteSucceeds` | modules/services/sheets_service.py:37-49 | a write to any lead's row with no platform failure returns true, whatever the update map names |
| `SheetsService.ReadBack` | modules/services/sheets_service.py:33-53 | after a write that returned true, re-reading the row gives its old record with the named fields replaced and every other field kept |
| `SheetsService.Records` | modules/services/sheets_service.py:16-21 | one record per row below the headers, each built from the header row and that row's cells |
| `SheetsService.GetAllLeads` | modules/services/sheets_service.py:16-21 | the records when the sheet can be read, the empty list when reading fails |
| `SheetsService.FindRowByUsername` | modules/services/sheets_service.py:23-31 | -1 when the search fails; otherwise the 1-based first row with a cell showing the username, or -1 when no row shows it |
| `InstagramService.NewClient` | modules/services/instagram_service.py:10-14 | a new client is logged out and keeps its session id and test-mode flag |
| `InstagramService.Login` | modules/services/instagram_service.py:16-24 | it reports whether the session login went through, and sets the logged-in flag only then |
| `InstagramService.Acceptable` | modules/services/instagram_service.py:41-44 | a profile is accepted exactly when it has 1000 to 50000 followers and is public |
| `InstagramService.GetValidUser` | modules/services/instagram_service.py:30-51 | a profile exactly when logged in, the fetch succeeded, followers are in [1000, 50000] and the account is public, and then it is the fetched profile |
| `InstagramService.SendMessage` | modules/services/instagram_service.py:53-66 | test mode reports success without login or platform call; otherwise the platform is called exactly when logged in, and success needs both a login and an accepted send |
| `InstagramService.FailedLoginBlocksEverything` | modules/services/instagram_service.py:16-28 | after a failed login the client finds no valid profile and, outside test mode, sends nothing |
| `Keywords.FirstMatch` | modules/ai_engine.py:16-18 | the niche found has a keyword in the text and no earlier niche does; none found means no niche does |
| `Keywords.Classify` | modules/ai_engine.py:7-19 | a missing or empty bio gives "default"; any other answer is "default" or a niche of the table |
| `Keywords.ClassifyPicksFirstMatch` | modules/ai_engine.py:16-18 | niche `i` is the answer exactly when the lowercased bio holds one of its keywords and none of an earlier niche's |
| `Keywords.ClassifyDefault` | modules/ai_engine.py:16-19 | the answer for a non-empty bio is "default" exactly when no niche's keyword occurs in it |
| `Keywords.ClassifyIgnoresCase` | modules/ai_engine.py:9 | lowercasing the bio first changes nothing: matching is case-insensitive |
| `AiEngine.AnalyzeNiche` | modules/ai_engine.py:7-19 | the answer is always one of business, marketing, creator, tech or default |
| `AiEngine.AnalyzeNichePicksFirst` | modules/ai_engine.py:10-18 | the answer is the first niche, in the order business, marketing, creator, tech, with a keyword in the lowercased bio |
| `AiEngine.FounderDeveloperIsBusiness` | modules/ai_engine.py:10-19 | a bio naming both a founder and a developer is a business bio |
| `AiEngine.GenerateCustomDm` | modules/ai_engine.py:21-28 | the default message when generation raises; otherwise the stripped reply, with no emptiness or length check |
| `Orchestrator.NumericStatusIsLive` | main.py:60 | a lead with a URL whose status cell holds a number is neither skipped nor terminal, because a number never renders as a word status |
| `Orchestrator.TerminalIsSkipped` | main.py:56-64 | every status the drip engine treats as final is also one the skip filter passes over |
| `Orchestrator.SendingIsNotSkipped` | main.py:56-64 | a row left at "sending..." with a URL is not skipped, so the next run looks at it again |
| `Orchestrator.ExtractUsername` | main.py:53-54 | the username has no `/` and is unchanged by surrounding white space or by extra trailing slashes |
| `Orchestrator.ResultUpdates` | main.py:99-105 | the update after a send names status, message number and last message date, in that order |
| `Orchestrator.Checkpoint` | main.py:88-91 | the "sending..." write changes only the lead's row, at most in the status column; it goes through exactly when the header read succeeds and, if there is a "Status" header, the lead's row is in the sheet and that one cell write succeeds |
| `Orchestrator.RecordSuccess` | main.py:95-109 | the result write changes only the lead's row, at most in its three columns, and is followed by one pause within the limiter's bounds |
| `Orchestrator.Deliver` | main.py:83-113 | the "sending..." write is the event right before the send; a failed send leaves only that write; a successful one adds the result write and the pause |
| `Orchestrator.DeliverColumns` | main.py:88-107 | after a failed send the lead's row differs at most in the status column; after a successful one, at most in the result's three columns |
| `Orchestrator.ProcessLead` | main.py:66-113 | capped exactly when the cap is reached, with no collaborator call; not due, raised, rejected, sent or failed exactly under their conditions; only the lead's own row can change, and only on a send attempt |
| `Orchestrator.ProcessLeadDelivers` | main.py:83-111 | a lead's only send comes right after its "sending..." write, and a lead that writes gets the next message number sent to the username its URL names |
| `Orchestrator.MarkerThenResult` | main.py:89-107 | the marker write and then the result write change the row at most in the result's columns |
| `Orchestrator.KeepTally` | main.py:72-111 | the metrics counters stay the tally of the outcomes so far (sends; not-due leads; rejected or failed leads): one more outcome moves exactly its own counter by one |
| `Orchestrator.Visit` | main.py:123-134 | one pass of the loop body: skipped exactly when `should_skip` holds, capped exactly when not skipped and the cap is reached, the matching counter moves, a send only below the cap, only the lead's row changes |
| `Orchestrator.KeepCap` | main.py:66-68 | a visit whose outcome is capped exactly when its lead is not skipped and the sends so far reach the cap keeps that rule true of every lead visited |
| `Orchestrator.VisitStep` | main.py:123-134 | one pass keeps the loop invariant, or, when the cap stops the loop, leaves the run finished |
| `Orchestrator.VisitAll` | main.py:123-134 | the progress is that of visiting the leads one after another from a fresh start; a lead is capped exactly when it is not skipped and the sends before it reach the cap, and the first such lead ends the loop, else every lead is visited; sends never pass the cap; the counters are the tally of the outcomes; the rows of leads not sent to are untouched; each send follows its checkpoint |
| `Orchestrator.Run` | main.py:116-136 | a failed login ends the run before the sheet is read or written; otherwise the leads are read once, the progress is that of visiting them in order with the logged-in client, and the loop's guarantees hold of them |
| `NextRun.MarkedThenRecorded` | main.py:89-107 | the "sending..." write followed by the result write reads back as if only the result write had happened |
| `NextRun.ResultRecord` | main.py:99-107 | the written row reads back with the number sent and today's date; it is skipped exactly when completed, and otherwise due again exactly `delay_days` after today, or at once when the number is 0 |
| `NextRun.MarkedRecord` | main.py:89-91 | the "sending..." write changes only the status, so the row is not skipped on that account and the drip engine decides as before |
| `NextRun.SentLeadReadsBack` | main.py:95-107 | a lead sent to reads back on the next run with number n <= `max_sequence`, today's date and "completed" exactly when n reaches `max_sequence`; it is skipped from then on exactly then, and otherwise due again exactly `delay_days` after today, or at once when n is 0 |
| `NextRun.FailedLeadIsRetried` | main.py:110-111 | a lead whose send failed reads back with only its status changed to "sending...", and it is still due, so the next run tries it again |
| `LegacyBot.ExtractUsername` | instagramdm.py:69-72 | no username for a missing or falsy URL; a non-zero number raises; a username has no `/` and ignores surrounding white space |
| `LegacyBot.AnalyzeBio` | instagramdm.py:90-103 | "default" for a missing or empty bio; always one of the five labels |
| `LegacyBot.AnalyzeBioPicksFirst` | instagramdm.py:100-103 | the answer is the first niche, in the order business, marketing, creator, tech, with a keyword in the lowercased bio |
| `LegacyBot.LayeredKeywordsIncluded` | instagramdm.py:94-99 | every keyword of the layered classifier is one here too, under the same niche at the same position |
| `LegacyBot.PlacedByLayeredIsPlacedHere` | instagramdm.py:90-103 | a bio the layered classifier places in a niche is not "default" here either |
| `LegacyBot.GenerateDm` | instagramdm.py:105-114 | the stripped reply when it is non-empty and shorter than 1000 characters, otherwise the default message; so the text is the default or between 1 and 999 characters |
| `LegacyBot.AcceptanceIsTheDifference` | instagramdm.py:111 | the layered and single-script generators agree on a reply exactly when it passes this acceptance rule or strips to the default message |
| `LegacyBot.IsValidUser` | instagramdm.py:124-131 | a user is valid exactly when the account is public, has 1000 to 50000 followers and passes the engagement check |
| `LegacyBot.ValidIsAcceptableAndEngaged` | instagramdm.py:124-131 | a valid user is one the layered client would accept that also passes the engagement check |
| `LegacyBot.DmUser` | instagramdm.py:133-143 | test mode always reports success; otherwise success is the platform's answer |
| `LegacyBot.DmUserIsLoggedInSend` | instagramdm.py:133-143 | the script's send reports what the layered client's send reports once logged in |
| `LegacyBot.WriteAttempts` | instagramdm.py:167-174 | one to three numbered attempts at column 13, stopping at the first that goes through; the last succeeds exactly when fewer than three raised, and fewer than three attempts are made only when the last went through, so three raising writes mean exactly three attempts |
| `LegacyBot.Attempt` | instagramdm.py:160-176 | the profile is fetched first; a DM happens exactly when the profile is valid, with the generated text; status writes follow only a DM that went through |
| `LegacyBot.Marked` | instagramdm.py:150-154 | a record is passed over exactly when its URL is missing or falsy or its status is exactly the text "messaged ✅", with no case folding |
| `LegacyBot.VisitRecord` | instagramdm.py:150-176 | a marked row or one without a URL does nothing; a numeric URL raises; otherwise a fresh, non-empty username derived from the URL is attempted |
| `LegacyBot.DmSetHolds` | instagramdm.py:176 | a username DM'd at some row stays in the tried set for every later row |
| `LegacyBot.FreshDmsAreDistinct` | instagramdm.py:156-158 | no username is DM'd twice in one run |
| `LegacyBot.DmFromSheet` | instagramdm.py:145-176 | each record's events are the loop body's given the usernames DM'd before it; the tried set holds exactly the DM'd usernames; the loop ends early only at a numeric URL |
| `LegacyBot.RunScript` | instagramdm.py:179-182 | a failed login does nothing; otherwise one pass over the records whose per-record log is that of `dm_from_sheet`, which covers every record unless it stops at an unmarked record whose URL cell is a number |
| `LegacyBot.MarkLandsInColumnM` | instagramdm.py:170 | re-read, the row shows the marker under whatever header column 13 has, and nothing else changes |
| `LegacyBot.MarkedNextRunIff` | instagramdm.py:153-170 | the next run skips the row exactly when column 13 is the "Status" column, or the row has no URL |

## Left out

- The platform, the spreadsheet API and the generative model are oracles. Their answers are parameters (`World`, `LegacyWorld`, `Fault`, the grid), not code.
- `time.sleep` is not modelled. The 3-second retry pause and the 1200-second pause of `instagramdm.py` leave no trace; the layered pause is a `Pause` event carrying its length. `random.randint` is a draw passed in.
- `datetime.now()` is the `today` parameter. The day difference is the difference of proleptic ordinals, which is `(now - last).days` for a midnight `last`.
- Dates.ParseFormatRoundTrip: stated only for years from 1000 on. The C library writes `%Y` without padding, so an earlier year does not parse back.
- `str.lower()` lowercases only ASCII letters here. `int()` does not accept underscores or non-ASCII digits. `Dates.ParseDate` accepts only ASCII digits, where the `\d` of `strptime`'s patterns also matches other Unicode decimal digits. `str.isspace()` is Python's set of white-space characters.
- The sheet client's own conversions are not modelled: number recognition, the duplicate-header check and the trimming of empty trailing rows. A cell is text or an integer, and a record keeps the last column of a repeated header.
- `calculate_engagement` uses floating-point division, so the engagement check is a boolean oracle.
- The reply rate is kept as a numerator and denominator; the floating-point division is not modelled.
- The process dying between the send and the result write is not modelled beyond what it leaves, which is a row at "sending...". Nothing decides what such a row means.
- `instagramdm.py`'s `get_all_records()` is called outside any `try`, so its failure ends the script. The model takes the records as given.
- `reply_detector.py`, `config.py`, `modules/sheets.py`, `modules/instagram.py`, `modules/utils/logger.py` and the `modules/services/ai_engine_service` module `main.py` imports are not part of this model. The drip fields are read and written under the literal names "Status", "Message Number" and "Last Message Date".
- Logging, folder creation and module-level client setup are not modelled.
- `AiEngine.GenerateCustomDm` takes the default message as a parameter. As written, `modules/ai_engine.py` cannot be imported: it takes `GEMINI_API_KEY` and `DEFAULT_DM_MESSAGE` from `config` (modules/ai_engine.py:2), and `config.py` defines neither at module level, only `Settings`, `_get_env` and `settings` (config.py:14, 47, 56). The model is the function that import evidently means.
- A write to a row past the sheet's last non-blank row counts as an API error. `run` only writes rows it read, so this never applies to it.
- Read literally, `main.py` fails before it reaches any lead. It imports `modules.services.ai_engine_service` (main.py:9), which is not part of this model. It then reads its settings as attributes of the `config` module (main.py:24-46), while they live on `config.settings`. Past those, the `metrics.skipped`, `metrics.failed` and `metrics.sent` increments (main.py:72, 80, 97, 111) would raise inside the per-row `try` of `run`; they would be logged per row, and after a successful send the result write would be skipped. The model is the orchestrator these lines evidently mean, with its own counters.
- `NextRun.SentLeadReadsBack`: stated only when neither sheet write faults, the headers are unique, all three drip headers ("Status", "Message Number", "Last Message Date") are present, and today's year is 1000 or later, where the written date parses back (see `Dates.ParseFormatRoundTrip`).
- `NextRun.FailedLeadIsRetried`: stated only when the "sending..." write does not fault and the status column exists.
- `NextRun.ResultRecord`: stated only for a row that already has the three drip fields and a URL, and for a year of 1000 or later, where the written date parses back.

=== FILE: ai_engine.dfy ===
/**
 * The layered version's message personalisation. The module as written
 * imports `GEMINI_API_KEY` and `DEFAULT_DM_MESSAGE` from `config`, which
 * defines neither, so it fails at import; here the default message is a
 * parameter instead.
 */
module AiEngine {
  import opened Wrappers
  import opened Strings
  import opened Keywords

  /** The niches and keywords of the layered version, in priority order. */
  const NicheTable: Table := [
    ("business", ["founder", "ceo", "startup"]),
    ("marketing", ["marketing", "branding"]),
    ("creator", ["content", "creator"]),
    ("tech", ["developer", "ai"])
  ]

  /** `analyze_niche(bio)`: one of business, marketing, creator, tech or default. */
  function AnalyzeNiche(bio: Option<string>): (niche: string)
    ensures niche in {"business", "marketing", "creator", "tech", "default"}
  {
    Classify(NicheTable, bio)
  }

  /**
   * `generate_custom_dm(bio)`: the model's reply, stripped, or the default
   * message when generation raises (`generated` is None). The reply is used
   * even when empty or long.
   */
  function GenerateCustomDm(defaultMessage: string, generated: Option<string>): (text: string)
    ensures generated.None? ==> text == defaultMessage
    ensures generated.Some? ==> text == Strip(generated.value)
  {
    match generated
    case None => defaultMessage
    case Some(reply) => Strip(reply)
  }

  /**
   * Niche `i` of the table is the answer exactly when the lowercased bio holds
   * one of its keywords and none of an earlier niche's.
   */
  lemma AnalyzeNichePicksFirst(bio: string, i: nat)
    requires bio != "" && i < |NicheTable|
    ensures AnalyzeNiche(Some(bio)) == NicheTable[i].0 <==>
      AnyKeyword(Lower(bio), NicheTable[i].1) && forall j :: 0 <= j < i ==> !AnyKeyword(Lower(bio), NicheTable[j].1)
  {
    ClassifyPicksFirstMatch(NicheTable, bio, i);
  }

  /** A bio naming both a founder and a developer is a business bio: business comes first. */
  lemma FounderDeveloperIsBusiness(bio: string)
    requires Contains(Lower(bio), "founder") && Contains(Lower(bio), "developer")
    ensures AnalyzeNiche(Some(bio)) == "business"
  {
    assert "founder" in NicheTable[0].1;
    assert bio != "" by {
      if bio == "" {
        assert false;
      }
    }
    ClassifyPicksFirstMatch(NicheTable, bio, 0);
  }
}

=== FILE: dates.dfy ===
/**
 * Calendar days as the drip engine uses them: the `%Y-%m-%d` text the sheet
 * holds, the date it denotes, and a day number so that the whole days between
 * two dates is a subtraction.
 */
module Dates {
  import opened Wrappers
  import opened Strings

  datatype Date = Date(year: int, month: int, day: int)

  predicate IsLeapYear(y: int) {
    y % 4 == 0 && (y % 100 != 0 || y % 400 == 0)
  }

  function DaysInMonth(y: int, m: int): int
    requires 1 <= m <= 12
  {
    if m == 2 then (if IsLeapYear(y) then 29 else 28)
    else if m == 4 || m == 6 || m == 9 || m == 11 then 30
    else 31
  }

  /** The dates Python's `datetime.date` can represent. */
  predicate Valid(d: Date) {
    && 1 <= d.year <= 9999
    && 1 <= d.month <= 12
    && 1 <= d.day <= DaysInMonth(d.year, d.month)
  }

  function DaysBeforeYear(y: int): int {
    var p := y - 1;
    p * 365 + p / 4 - p / 100 + p / 400
  }

  function DaysBeforeMonth(y: int, m: int): int
    requires 1 <= m <= 12
  {
    [0, 31, 59, 90, 120, 151, 181, 212, 243, 273, 304, 334][m - 1]
      + (if m > 2 && IsLeapYear(y) then 1 else 0)
  }

  /**
   * The proleptic Gregorian ordinal (Python's `date.toordinal()`: 0001-01-01 is
   * day 1). `(datetime.now() - last).days` for a midnight `last` is
   * `DayNumber(today) - DayNumber(last)`, since `now` lies within `today`.
   */
  function DayNumber(d: Date): int
    requires Valid(d)
  {
    DaysBeforeYear(d.year) + DaysBeforeMonth(d.year, d.month) + d.day
  }

  /** The calendar day after `d`. */
  function NextDay(d: Date): Date
    requires Valid(d)
  {
    if d.day < DaysInMonth(d.year, d.month) then Date(d.year, d.month, d.day + 1)
    else if d.month < 12 then Date(d.year, d.month + 1, 1)
    else Date(d.year + 1, 1, 1)
  }

  lemma DivisionStep(y: int)
    requires y >= 1
    ensures y / 4 - (y - 1) / 4 == (if y % 4 == 0 then 1 else 0)
    ensures y / 100 - (y - 1) / 100 == (if y % 100 == 0 then 1 else 0)
    ensures y / 400 - (y - 1) / 400 == (if y % 400 == 0 then 1 else 0)
  {
  }

  /** A multiple of 100 is a multiple of 4, and a multiple of 400 one of 100. */
  lemma CenturyDivisibility(y: int)
    ensures y % 100 == 0 ==> y % 4 == 0
    ensures y % 400 == 0 ==> y % 100 == 0
  {
    if y % 100 == 0 {
      var q := 25 * (y / 100);
      assert y == 4 * q;
    }
    if y % 400 == 0 {
      var q := 4 * (y / 400);
      assert y == 100 * q;
    }
  }

  lemma YearLength(y: int)
    requires y >= 1
    ensures DaysBeforeYear(y + 1) - DaysBeforeYear(y) == (if IsLeapYear(y) then 366 else 365)
  {
    DivisionStep(y);
    CenturyDivisibility(y);
    assert DaysBeforeYear(y + 1) - DaysBeforeYear(y) == 365 + (y / 4 - (y - 1) / 4) - (y / 100 - (y - 1) / 100) + (y / 400 - (y - 1) / 400);
  }

  /** Day numbers count calendar days: the next day is exactly one more. */
  lemma NextDayIsOneLater(d: Date)
    requires Valid(d) && (d.year < 9999 || d.month < 12 || d.day < 31)
    ensures Valid(NextDay(d))
    ensures DayNumber(NextDay(d)) == DayNumber(d) + 1
  {
    if d.day == DaysInMonth(d.year, d.month) && d.month == 12 {
      YearLength(d.year);
    }
  }

  /** Whether a string is one of the forms CPython's `%m` directive accepts: `1[0-2]|0[1-9]|[1-9]`. */
  function MonthToken(t: string): (r: Option<int>)
    ensures r.Some? ==> 1 <= r.value <= 12
  {
    if |t| == 2 && t[0] == '1' && '0' <= t[1] <= '2' then Some(10 + DigitValue(t[1]))
    else if |t| == 2 && t[0] == '0' && '1' <= t[1] <= '9' then Some(DigitValue(t[1]))
    else if |t| == 1 && '1' <= t[0] <= '9' then Some(DigitValue(t[0]))
    else None
  }

  /** The forms CPython's `%d` directive accepts: `3[01]|[12]\d|0[1-9]|[1-9]| [1-9]`. */
  function DayToken(t: string): (r: Option<int>)
    ensures r.Some? ==> 1 <= r.value <= 31
  {
    if |t| == 2 && t[0] == '3' && '0' <= t[1] <= '1' then Some(30 + DigitValue(t[1]))
    else if |t| == 2 && '1' <= t[0] <= '2' && IsDigit(t[1]) then Some(10 * DigitValue(t[0]) + DigitValue(t[1]))
    else if |t| == 2 && t[0] == '0' && '1' <= t[1] <= '9' then Some(DigitValue(t[1]))
    else if |t| == 1 && '1' <= t[0] <= '9' then Some(DigitValue(t[0]))
    else if |t| == 2 && t[0] == ' ' && '1' <= t[1] <= '9' then Some(DigitValue(t[1]))
    else None
  }

  /** The position of the first `c` in `s`, as `s.find(c)` gives it. */
  function IndexOf(s: string, c: char): (r: Option<nat>)
    ensures r.Some? ==> r.value < |s| && s[r.value] == c && c !in s[..r.value]
    ensures r.None? ==> c !in s
    decreases |s|
  {
    if |s| == 0 then None
    else if s[0] == c then Some(0)
    else match IndexOf(s[1..], c)
      case None => None
      case Some(k) =>
        assert s[..k + 1] == [s[0]] + s[1..][..k];
        Some(k + 1)
  }

  /**
   * `datetime.strptime(s, "%Y-%m-%d")`: four digits, '-', a month, '-', a day
   * and nothing else, naming a date that exists. None stands for the ValueError.
   */
  function ParseDate(s: string): (r: Option<Date>)
    ensures r.Some? ==> Valid(r.value)
  {
    if |s| < 5 || !AllDigits(s[..4]) || s[4] != '-' then None
    else
      var rest := s[5..];
      match IndexOf(rest, '-')
      case None => None
      case Some(k) =>
        match (MonthToken(rest[..k]), DayToken(rest[k + 1..]))
        case (Some(m), Some(d)) =>
          var date := Date(DigitsValue(s[..4]), m, d);
          if Valid(date) then Some(date) else None
        case _ => None
  }

  function Pad2(n: int): (r: string)
    requires 0 <= n < 100
    ensures |r| == 2 && AllDigits(r)
  {
    [DigitChar(n / 10), DigitChar(n % 10)]
  }

  /**
   * `date.strftime("%Y-%m-%d")`. The C library renders `%Y` without padding,
   * so a year below 1000 gives fewer than four digits.
   */
  function FormatDate(d: Date): string
    requires Valid(d)
  {
    NatDecimal(d.year) + "-" + Pad2(d.month) + "-" + Pad2(d.day)
  }

  /** A date written with `FormatDate` parses back to itself. */
  lemma ParseFormatRoundTrip(d: Date)
    requires Valid(d) && d.year >= 1000
    ensures ParseDate(FormatDate(d)) == Some(d)
  {
    var y := NatDecimal(d.year);
    var m := Pad2(d.month);
    var dd := Pad2(d.day);
    var s := FormatDate(d);
    DecimalHasFourDigits(d.year);
    assert s == y + "-" + m + "-" + dd;
    assert s[..4] == y && s[4] == '-';
    var rest := s[5..];
    assert rest == m + "-" + dd;
    assert IndexOf(rest, '-') == Some(2);
    assert rest[..2] == m && rest[3..] == dd;
    assert MonthToken(m) == Some(d.month);
    assert DayToken(dd) == Some(d.day);
    DigitsValueOfDecimal(d.year);
  }
}

=== FILE: drip_engine.dfy ===
/**
 * The drip schedule: whether a lead row is due for its next message, which
 * number that message has, and whether it ends the sequence.
 */
module DripEngine {
  import opened Wrappers
  import opened Strings
  import opened Dates
  import opened Rows

  /** `delay_days` whole days between messages; at most `max_sequence` messages. */
  datatype Engine = Engine(delayDays: int, maxSequence: int)

  /** The statuses after which a lead is never messaged again. */
  predicate IsTerminal(status: string) {
    status == "replied" || status == "completed"
  }

  /** `int(row.get("Message Number") or 0)`: a blank field counts as 0; text that is not an integer raises. */
  function MessageNumber(row: Row): (r: Result<int>)
    ensures Blank(row, MessageNumberKey) ==> r == Ok(0)
    ensures MessageNumberKey in row && row[MessageNumberKey].Number? ==> r == Ok(row[MessageNumberKey].n)
    ensures r.Err? <==> MessageNumberKey in row && row[MessageNumberKey].Text?
                        && row[MessageNumberKey].s != "" && ParseInt(row[MessageNumberKey].s).None?
    ensures && MessageNumberKey in row && row[MessageNumberKey].Text? && row[MessageNumberKey].s != ""
            && ParseInt(row[MessageNumberKey].s).Some?
            ==> r == Ok(ParseInt(row[MessageNumberKey].s).value)
  {
    if Blank(row, MessageNumberKey) then Ok(0)
    else match row[MessageNumberKey]
      case Number(n) => Ok(n)
      case Text(s) =>
        match ParseInt(s)
        case Some(n) => Ok(n)
        case None => Err(ValueError("invalid literal for int()"))
  }

  /** The last-sent date: None when the field is blank, an error when it is not a `%Y-%m-%d` date. */
  function LastDate(row: Row): (r: Result<Option<Date>>)
    ensures Blank(row, LastMessageDateKey) <==> r == Ok(None)
    ensures r.Ok? && r.value.Some? ==> Valid(r.value.value)
  {
    if Blank(row, LastMessageDateKey) then Ok(None)
    else match row[LastMessageDateKey]
      case Number(_) => Err(TypeError("strptime() argument 1 must be str"))
      case Text(s) =>
        match ParseDate(s)
        case Some(d) => Ok(Some(d))
        case None => Err(ValueError("time data does not match format '%Y-%m-%d'"))
  }

  /**
   * `should_send(row)`. The message number is read before the status is
   * looked at, so a malformed number raises even on a terminal row.
   */
  function ShouldSend(e: Engine, row: Row, today: Date): (r: Result<bool>)
    requires Valid(today)
    ensures MessageNumber(row).Err? ==> r == Err(MessageNumber(row).error)
    ensures MessageNumber(row).Ok? && IsTerminal(Status(row)) ==> r == Ok(false)
    ensures MessageNumber(row).Ok? && MessageNumber(row).value >= e.maxSequence ==> r == Ok(false)
    ensures MessageNumber(row) == Ok(0) && !IsTerminal(Status(row)) && e.maxSequence > 0 ==> r == Ok(true)
    ensures (&& MessageNumber(row).Ok? && MessageNumber(row).value != 0 && MessageNumber(row).value < e.maxSequence
             && !IsTerminal(Status(row)) && Blank(row, LastMessageDateKey)) ==> r == Ok(true)
    ensures (&& MessageNumber(row).Ok? && MessageNumber(row).value != 0 && MessageNumber(row).value < e.maxSequence
             && !IsTerminal(Status(row)) && LastDate(row).Err?) ==> r == Err(LastDate(row).error)
    ensures (&& MessageNumber(row).Ok? && MessageNumber(row).value != 0 && MessageNumber(row).value < e.maxSequence
             && !IsTerminal(Status(row)) && LastDate(row).Ok? && LastDate(row).value.Some?)
            ==> r == Ok(DayNumber(today) - DayNumber(LastDate(row).value.value) >= e.delayDays)
  {
    match MessageNumber(row)
    case Err(x) => Err(x)
    case Ok(n) =>
      if IsTerminal(Status(row)) then Ok(false)
      else if n >= e.maxSequence then Ok(false)
      else if n == 0 then Ok(true)
      else match LastDate(row)
        case Err(x) => Err(x)
        case Ok(None) => Ok(true)
        case Ok(Some(last)) => Ok(DayNumber(today) - DayNumber(last) >= e.delayDays)
  }

  /** `next_message_number(row)`: the stored number plus one, whatever the status. */
  function NextMessageNumber(row: Row): (r: Result<int>)
    ensures MessageNumber(row).Ok? <==> r.Ok?
    ensures r.Ok? ==> r.value == MessageNumber(row).value + 1
  {
    match MessageNumber(row)
    case Ok(n) => Ok(n + 1)
    case Err(x) => Err(x)
  }

  /** `mark_completed(n)`: the message numbered `n` is the last of the sequence. */
  predicate MarkCompleted(e: Engine, n: int) {
    n >= e.maxSequence
  }

  /**
   * The decision once the message number and status let the date matter: the
   * row is due exactly when at least `delay_days` whole days have passed.
   */
  lemma DueExactlyAfterDelay(e: Engine, row: Row, today: Date, last: Date)
    requires Valid(today)
    requires MessageNumber(row).Ok? && MessageNumber(row).value != 0 && MessageNumber(row).value < e.maxSequence
    requires !IsTerminal(Status(row))
    requires LastMessageDateKey in row && row[LastMessageDateKey].Text?
    requires ParseDate(row[LastMessageDateKey].s) == Some(last)
    ensures ShouldSend(e, row, today) == Ok(DayNumber(today) - DayNumber(last) >= e.delayDays)
  {
  }

  /** A last date that is not a `%Y-%m-%d` date is an error, not a "no". */
  lemma MalformedDateRaises(e: Engine, row: Row, today: Date)
    requires Valid(today)
    requires MessageNumber(row).Ok? && MessageNumber(row).value != 0 && MessageNumber(row).value < e.maxSequence
    requires !IsTerminal(Status(row))
    requires !Blank(row, LastMessageDateKey)
    requires row[LastMessageDateKey].Number? || ParseDate(row[LastMessageDateKey].s).None?
    ensures ShouldSend(e, row, today).Err?
  {
  }

  /**
   * A message sent because the row was due carries a number no larger than
   * `max_sequence`, and it is the completing one exactly when it reaches it.
   */
  lemma SentNumberWithinSequence(e: Engine, row: Row, today: Date)
    requires Valid(today)
    requires ShouldSend(e, row, today) == Ok(true)
    ensures NextMessageNumber(row).Ok?
    ensures NextMessageNumber(row).value <= e.maxSequence
    ensures MarkCompleted(e, NextMessageNumber(row).value) <==> NextMessageNumber(row).value == e.maxSequence
  {
  }

  /** The boundary with the default delay of three days: three days back is due, two is not. */
  lemma ThreeDayBoundary(row: Row, today: Date, last: Date)
    requires Valid(today) && Valid(last)
    requires MessageNumber(row) == Ok(1) && !IsTerminal(Status(row))
    requires LastMessageDateKey in row && row[LastMessageDateKey].Text?
    requires ParseDate(row[LastMessageDateKey].s) == Some(last)
    ensures DayNumber(today) - DayNumber(last) == 3 ==> ShouldSend(Engine(3, 4), row, today) == Ok(true)
    ensures DayNumber(today) - DayNumber(last) == 2 ==> ShouldSend(Engine(3, 4), row, today) == Ok(false)
  {
  }

  /** The two rows hold the same value, or both lack the field. */
  predicate SameField(a: Row, b: Row, key: string) {
    (key in a <==> key in b) && (key in a ==> a[key] == b[key])
  }

  /**
   * `should_send` reads nothing but the message number, the last-sent date
   * and whether the status is terminal: rows that agree on those get the same
   * decision, and the same parsed fields.
   */
  lemma ShouldSendReadsDripFields(e: Engine, a: Row, b: Row, today: Date)
    requires Valid(today)
    requires SameField(a, b, MessageNumberKey) && SameField(a, b, LastMessageDateKey)
    requires IsTerminal(Status(a)) == IsTerminal(Status(b))
    ensures MessageNumber(a) == MessageNumber(b) && LastDate(a) == LastDate(b)
    ensures ShouldSend(e, a, today) == ShouldSend(e, b, today)
  {
  }
}

=== FILE: instagram_service.dfy ===
/**
 * The messaging client: a logged-in flag set by a session login, a profile
 * filter, and a send that test mode short-circuits. Each platform call is an
 * oracle result passed in.
 */
module InstagramService {
  import opened Wrappers

  /** The profile fields the bot looks at. */
  datatype UserInfo = UserInfo(pk: int, username: string, followerCount: int, isPrivate: bool,
                               biography: Option<string>)

  datatype Client = Client(sessionId: string, testMode: bool, loggedIn: bool)

  /** `InstagramClient(session_id, test_mode)`: a new client is logged out. */
  function NewClient(sessionId: string, testMode: bool): (c: Client)
    ensures !c.loggedIn && c.sessionId == sessionId && c.testMode == testMode
  {
    Client(sessionId, testMode, false)
  }

  /**
   * `login()`, where `accepted` is whether `login_by_sessionid` returns. A
   * failed login reports false and leaves the flag as it was.
   */
  function Login(c: Client, accepted: bool): (r: (Client, bool))
    ensures r.1 == accepted
    ensures r.0.loggedIn == (c.loggedIn || accepted)
    ensures r.0.sessionId == c.sessionId && r.0.testMode == c.testMode
  {
    if accepted then (c.(loggedIn := true), true) else (c, false)
  }

  /** The follower band and privacy rule a profile must pass. */
  predicate Acceptable(u: UserInfo) {
    1000 <= u.followerCount <= 50000 && !u.isPrivate
  }

  /**
   * `get_valid_user(username)`, where `fetched` is what `user_info_by_username`
   * returns (None when it raises). Not being logged in raises inside the
   * `try`, so it also yields None.
   */
  function GetValidUser(c: Client, fetched: Option<UserInfo>): (r: Option<UserInfo>)
    ensures r.Some? <==> c.loggedIn && fetched.Some? && Acceptable(fetched.value)
    ensures r.Some? ==> r == fetched
  {
    if !c.loggedIn then None
    else match fetched
      case None => None
      case Some(u) => if Acceptable(u) then Some(u) else None
  }

  /** What `send_message` reports, and whether it reached `direct_send`. */
  datatype SendOutcome = SendOutcome(ok: bool, platformCalled: bool)

  /**
   * `send_message(user_id, text)`, where `accepted` is whether `direct_send`
   * returns. Test mode reports success without logging in or calling the platform.
   */
  function SendMessage(c: Client, accepted: bool): (r: SendOutcome)
    ensures c.testMode ==> r == SendOutcome(true, false)
    ensures !c.testMode ==> r.platformCalled == c.loggedIn && r.ok == (c.loggedIn && accepted)
  {
    if c.testMode then SendOutcome(true, false)
    else if !c.loggedIn then SendOutcome(false, false)
    else SendOutcome(accepted, true)
  }

  /**
   * A client whose only login failed stays logged out: it finds no valid
   * profile and, outside test mode, sends nothing.
   */
  lemma FailedLoginBlocksEverything(sessionId: string, testMode: bool, fetched: Option<UserInfo>, accepted: bool)
    ensures var c := Login(NewClient(sessionId, testMode), false).0;
      && !c.loggedIn
      && GetValidUser(c, fetched).None?
      && (!testMode ==> !SendMessage(c, accepted).ok && !SendMessage(c, accepted).platformCalled)
  {
  }
}

=== FILE: keywords.dfy ===
/** Keyword niche classification of a profile bio. */
module Keywords {
  import opened Wrappers
  import opened Strings

  /** Niches in priority order, each with its keywords. */
  type Table = seq<(string, seq<string>)>

  const DefaultNiche := "default"

  /** `any(word in bio for word in keywords)`. */
  predicate AnyKeyword(text: string, keywords: seq<string>) {
    exists w :: w in keywords && Contains(text, w)
  }

  /** The position of the first niche with a keyword in `text`. */
  function FirstMatch(table: Table, text: string): (r: Option<nat>)
    ensures r.Some? ==> r.value < |table| && AnyKeyword(text, table[r.value].1)
    ensures r.Some? ==> forall i :: 0 <= i < r.value ==> !AnyKeyword(text, table[i].1)
    ensures r.None? ==> forall i :: 0 <= i < |table| ==> !AnyKeyword(text, table[i].1)
    decreases |table|
  {
    if |table| == 0 then None
    else if AnyKeyword(text, table[0].1) then Some(0)
    else match FirstMatch(table[1..], text)
      case None => None
      case Some(i) => Some(i + 1)
  }

  /**
   * `if not bio: return "default"`, then the first niche, in table order,
   * with a keyword occurring in the lowercased bio, or "default".
   */
  function Classify(table: Table, bio: Option<string>): (niche: string)
    ensures bio.None? || bio == Some("") ==> niche == DefaultNiche
    ensures niche == DefaultNiche || exists i :: 0 <= i < |table| && table[i].0 == niche
  {
    if bio.None? || bio.value == "" then DefaultNiche
    else match FirstMatch(table, Lower(bio.value))
      case None => DefaultNiche
      case Some(i) => table[i].0
  }

  /** Niche `i` is chosen exactly when one of its keywords occurs and none of an earlier niche does. */
  lemma ClassifyPicksFirstMatch(table: Table, bio: string, i: nat)
    requires bio != "" && i < |table|
    requires forall j :: 0 <= j < |table| ==> table[j].0 != DefaultNiche
    requires forall j, k :: 0 <= j < k < |table| ==> table[j].0 != table[k].0
    ensures Classify(table, Some(bio)) == table[i].0 <==>
      AnyKeyword(Lower(bio), table[i].1) && forall j :: 0 <= j < i ==> !AnyKeyword(Lower(bio), table[j].1)
  {
    var m := FirstMatch(table, Lower(bio));
    if m.Some? && m.value != i {
      assert table[m.value].0 != table[i].0;
    }
  }

  /** Nothing matches exactly when the label is "default". */
  lemma ClassifyDefault(table: Table, bio: string)
    requires bio != ""
    requires forall j :: 0 <= j < |table| ==> table[j].0 != DefaultNiche
    ensures Classify(table, Some(bio)) == DefaultNiche <==>
      forall j :: 0 <= j < |table| ==> !AnyKeyword(Lower(bio), table[j].1)
  {
  }

  /** Case does not matter: the bio is lowercased before matching. */
  lemma ClassifyIgnoresCase(table: Table, bio: string)
    ensures Classify(table, Some(Lower(bio))) == Classify(table, Some(bio))
  {
    assert Lower(Lower(bio)) == Lower(bio);
  }
}

=== FILE: legacy_bot.dfy ===
/**
 * The single-script bot (instagramdm.py): one pass over the sheet's records,
 * skipping rows already marked, trying each username at most once per run,
 * and marking a messaged row with up to three attempts at the status cell.
 * Unlike the layered version it writes the status to a fixed column, reads no
 * message number or date, and never pauses between per-row decisions other
 * than by sleeping, which is not modelled.
 */
module LegacyBot {
  import opened Wrappers
  import opened Strings
  import opened Rows
  import opened Urls
  import opened Keywords
  import opened SheetsService
  import opened InstagramService
  import AiEngine

  /** The status cell's column (column M); the write does not look at the headers. */
  const StatusColumn := 13

  /** The status written after a DM, and the one a row is skipped for. */
  const MessagedMarker := "messaged ✅"

  /** How many times the status write is tried. */
  const MaxWriteAttempts := 3

  /** Generated text must be shorter than this to be used. */
  const MaxTextLength := 1000

  /**
   * `extract_username(url)` on the record's URL field: None when the field is
   * missing or falsy; a number raises, as it has no `strip`.
   */
  function ExtractUsername(url: Option<Cell>): (r: Result<Option<string>>)
    ensures url.None? || !Truthy(url.value) ==> r == Ok(None)
    ensures r.Err? <==> url.Some? && url.value.Number? && url.value.n != 0
    ensures r.Ok? && r.value.Some? ==> url.Some? && url.value.Text? && url.value.s != ""
    ensures r.Ok? && r.value.Some? ==> '/' !in r.value.value
    ensures r.Ok? && r.value.Some? ==>
      forall w1, w2 :: AllSpace(w1) && AllSpace(w2) ==> Username(w1 + url.value.s + w2) == r.value.value
  {
    match url
    case None => Ok(None)
    case Some(Number(n)) => if n == 0 then Ok(None) else Err(AttributeError("'int' object has no attribute 'strip'"))
    case Some(Text(s)) =>
      if s == "" then Ok(None)
      else
        var username := Username(s);
        assert forall w1, w2 :: AllSpace(w1) && AllSpace(w2) ==> Username(w1 + s + w2) == username by {
          forall w1, w2 | AllSpace(w1) && AllSpace(w2)
            ensures Username(w1 + s + w2) == username
          {
            UsernameIgnoresSurroundingSpace(w1, s, w2);
          }
        }
        Ok(Some(username))
  }

  /** The niches and keywords of the single-script bot, in priority order. */
  const BioTable: Table := [
    ("business", ["founder", "ceo", "startup", "entrepreneur"]),
    ("marketing", ["marketing", "branding", "seo", "ads"]),
    ("creator", ["content", "creator", "youtube", "tiktok"]),
    ("tech", ["developer", "software", "ai", "app"])
  ]

  /** `analyze_bio(bio)`: one of business, marketing, creator, tech or default. */
  function AnalyzeBio(bio: Option<string>): (niche: string)
    ensures bio.None? || bio == Some("") ==> niche == "default"
    ensures niche in {"business", "marketing", "creator", "tech", "default"}
  {
    Classify(BioTable, bio)
  }

  /**
   * Niche `i` of the table is the answer exactly when the lowercased bio holds
   * one of its keywords and none of an earlier niche's.
   */
  lemma AnalyzeBioPicksFirst(bio: string, i: nat)
    requires bio != "" && i < |BioTable|
    ensures AnalyzeBio(Some(bio)) == BioTable[i].0 <==>
      AnyKeyword(Lower(bio), BioTable[i].1) && forall j :: 0 <= j < i ==> !AnyKeyword(Lower(bio), BioTable[j].1)
  {
    ClassifyPicksFirstMatch(BioTable, bio, i);
  }

  /**
   * Every keyword of the layered version is one here too, under the same
   * niche, so a bio the layered version places is placed here as well.
   */
  lemma PlacedByLayeredIsPlacedHere(bio: string)
    requires bio != ""
    requires AiEngine.AnalyzeNiche(Some(bio)) != "default"
    ensures AnalyzeBio(Some(bio)) != "default"
  {
    ClassifyDefault(AiEngine.NicheTable, bio);
    var j :| 0 <= j < |AiEngine.NicheTable| && AnyKeyword(Lower(bio), AiEngine.NicheTable[j].1);
    var w :| w in AiEngine.NicheTable[j].1 && Contains(Lower(bio), w);
    LayeredKeywordsIncluded(j, w);
    ClassifyDefault(BioTable, bio);
  }

  /** The layered version's table is this one with keywords dropped: same niches, same order. */
  lemma LayeredKeywordsIncluded(j: nat, w: string)
    requires j < |AiEngine.NicheTable| && w in AiEngine.NicheTable[j].1
    ensures j < |BioTable| && BioTable[j].0 == AiEngine.NicheTable[j].0 && w in BioTable[j].1
  {
  }

  /** `text and len(text) < 1000`. */
  predicate AcceptText(text: string) {
    text != "" && |text| < MaxTextLength
  }

  /**
   * `generate_dm(bio)`, where `generated` is the model's reply (None when the
   * call raises): the stripped reply when it is non-empty and shorter than
   * 1000 characters, otherwise the default message.
   */
  function GenerateDm(defaultMessage: string, generated: Option<string>): (msg: string)
    ensures generated.None? ==> msg == defaultMessage
    ensures generated.Some? && AcceptText(Strip(generated.value)) ==> msg == Strip(generated.value)
    ensures generated.Some? && !AcceptText(Strip(generated.value)) ==> msg == defaultMessage
    ensures msg == defaultMessage || 0 < |msg| < MaxTextLength
  {
    match generated
    case None => defaultMessage
    case Some(reply) =>
      var text := Strip(reply);
      if AcceptText(text) then text else defaultMessage
  }

  /**
   * The layered version's `generate_custom_dm` has no acceptance rule: the two
   * give the same message exactly when the reply is acceptable here, or when
   * it happens to strip to the default message itself.
   */
  lemma AcceptanceIsTheDifference(defaultMessage: string, reply: string)
    ensures AiEngine.GenerateCustomDm(defaultMessage, Some(reply)) == GenerateDm(defaultMessage, Some(reply)) <==>
      AcceptText(Strip(reply)) || Strip(reply) == defaultMessage
  {
  }

  /**
   * `is_valid_user(user)`: public, with 1000 to 50000 followers, and an
   * engagement rate of at least 0.5 (`engaged`, which is not modelled).
   */
  predicate IsValidUser(user: UserInfo, engaged: bool) {
    !user.isPrivate && 1000 <= user.followerCount <= 50000 && engaged
  }

  /** The filter is the layered client's, plus the engagement requirement. */
  lemma ValidIsAcceptableAndEngaged(user: UserInfo, engaged: bool)
    ensures IsValidUser(user, engaged) <==> Acceptable(user) && engaged
  {
  }

  /** `dm_user(user, message)`, where `accepted` is whether `direct_send` returns. */
  function DmUser(testMode: bool, accepted: bool): (ok: bool)
    ensures testMode ==> ok
    ensures !testMode ==> ok == accepted
  {
    testMode || accepted
  }

  /** The script sends as the layered client does once logged in. */
  lemma DmUserIsLoggedInSend(sessionId: string, testMode: bool, accepted: bool)
    ensures DmUser(testMode, accepted) == SendMessage(Client(sessionId, testMode, true), accepted).ok
  {
  }

  /**
   * What the collaborators answer for the row at position `i` of the records:
   * the profile (None when fetching raises), the engagement check, the
   * model's reply, whether `direct_send` returns, and how many status writes
   * raise before one goes through.
   */
  datatype LegacyWorld = LegacyWorld(
    profile: nat -> Option<UserInfo>,
    engaged: nat -> bool,
    generated: nat -> Option<string>,
    sendAccepted: nat -> bool,
    writeFailures: nat -> nat)

  /** The collaborator calls one row causes; `row` is the sheet row. */
  datatype LegacyEvent =
    | Fetch(row: int, username: string)
    | Dm(row: int, username: string, recipient: int, text: string, ok: bool)
    | StatusWrite(row: int, column: int, attempt: nat, ok: bool)

  /** `if not url or status == "messaged ✅": continue` (the comparison is case-sensitive). */
  predicate Marked(row: Row) {
    Blank(row, UrlKey) || Get(row, StatusKey) == Some(Text(MessagedMarker))
  }

  /**
   * The retry loop after a DM: attempts until one goes through, at most three.
   * The first `failures` attempts raise.
   */
  function WriteAttempts(row: int, failures: nat): (r: seq<LegacyEvent>)
    ensures 1 <= |r| <= MaxWriteAttempts
    ensures forall k :: 0 <= k < |r| ==> r[k] == StatusWrite(row, StatusColumn, k, k == failures)
    ensures forall k :: 0 <= k < |r| - 1 ==> !r[k].ok
    ensures r[|r| - 1].ok <==> failures < MaxWriteAttempts
    ensures |r| < MaxWriteAttempts ==> r[|r| - 1].ok
  {
    var n := if failures < MaxWriteAttempts then failures + 1 else MaxWriteAttempts;
    seq(n, k requires 0 <= k < n => StatusWrite(row, StatusColumn, k, k == failures))
  }

  /**
   * Status writes for sheet row `row`: one to three numbered attempts at the
   * status column, none after one that went through, and a fourth never
   * needed because the third is the last.
   */
  predicate WritesShape(ws: seq<LegacyEvent>, row: int) {
    && 1 <= |ws| <= MaxWriteAttempts
    && (forall k :: 0 <= k < |ws| ==> ws[k].StatusWrite? && ws[k].row == row && ws[k].column == StatusColumn && ws[k].attempt == k)
    && (forall k :: 0 <= k < |ws| - 1 ==> !ws[k].ok)
    && (|ws| < MaxWriteAttempts ==> ws[|ws| - 1].ok)
  }

  /** The username a row's events DM'd, if they DM'd one. */
  function DmTo(events: seq<LegacyEvent>): Option<string> {
    if |events| >= 2 && events[1].Dm? then Some(events[1].username) else None
  }

  /** The usernames DM'd in a run so far: the `tried_usernames` set. */
  function DmSet(log: seq<seq<LegacyEvent>>): set<string>
    decreases |log|
  {
    if |log| == 0 then {}
    else DmSet(log[..|log| - 1]) + (if DmTo(log[|log| - 1]).Some? then {DmTo(log[|log| - 1]).value} else {})
  }

  /** One row's events: a fetch, then a DM, then status writes only after a DM that went through. */
  predicate RowShape(events: seq<LegacyEvent>, i: nat) {
    && (|events| > 0 ==> events[0].Fetch? && events[0].row == i + 2)
    && (|events| > 1 ==> events[1].Dm? && events[1].row == i + 2 && events[1].username == events[0].username)
    && (|events| > 2 ==> events[1].ok && WritesShape(events[2..], i + 2))
  }

  /**
   * The loop body once a fresh username is in hand: fetch the profile, and
   * for a valid one generate the text, DM it, and on success mark the row.
   */
  function Attempt(testMode: bool, defaultMessage: string, w: LegacyWorld, i: nat, username: string): (r: seq<LegacyEvent>)
    ensures |r| > 0 && r[0] == Fetch(i + 2, username)
    ensures RowShape(r, i)
    ensures DmTo(r).Some? <==> w.profile(i).Some? && IsValidUser(w.profile(i).value, w.engaged(i))
    ensures |r| > 1 ==>
      r[1] == Dm(i + 2, username, w.profile(i).value.pk, GenerateDm(defaultMessage, w.generated(i)),
                 DmUser(testMode, w.sendAccepted(i)))
    ensures |r| > 1 ==> (|r| > 2 <==> r[1].ok)
  {
    var fetch := Fetch(i + 2, username);
    match w.profile(i)
    case None => [fetch]
    case Some(user) =>
      if !IsValidUser(user, w.engaged(i)) then [fetch]
      else
        var ok := DmUser(testMode, w.sendAccepted(i));
        var dm := Dm(i + 2, username, user.pk, GenerateDm(defaultMessage, w.generated(i)), ok);
        if ok then
          var writes := WriteAttempts(i + 2, w.writeFailures(i));
          assert ([fetch, dm] + writes)[2..] == writes;
          [fetch, dm] + writes
        else [fetch, dm]
  }

  /** The loop body of `dm_from_sheet` for the record at position `i`, given the usernames tried so far. */
  function VisitRecord(testMode: bool, defaultMessage: string, w: LegacyWorld, row: Row, i: nat, tried: set<string>): (r: Result<seq<LegacyEvent>>)
    ensures r.Err? <==> !Marked(row) && row[UrlKey].Number?
    ensures r.Ok? && Marked(row) ==> r.value == []
    ensures r.Ok? ==> RowShape(r.value, i)
    ensures r.Ok? && |r.value| > 0 ==>
      && r.value[0].username != "" && r.value[0].username !in tried
      && Get(row, UrlKey) == Some(Text(row[UrlKey].s)) && r.value[0].username == Username(row[UrlKey].s)
      && r.value == Attempt(testMode, defaultMessage, w, i, r.value[0].username)
  {
    if Marked(row) then Ok([])
    else match ExtractUsername(Get(row, UrlKey))
      case Err(e) => Err(e)
      case Ok(None) => Ok([])
      case Ok(Some(username)) =>
        if username == "" || username in tried then Ok([])
        else Ok(Attempt(testMode, defaultMessage, w, i, username))
  }

  /** Each DM of the run goes to a username not DM'd before it. */
  predicate FreshDms(log: seq<seq<LegacyEvent>>) {
    forall k :: 0 <= k < |log| && DmTo(log[k]).Some? ==> DmTo(log[k]).value !in DmSet(log[..k])
  }

  /** Appending a row's events: the DM set grows by that row's DM. */
  lemma DmSetAppend(log: seq<seq<LegacyEvent>>, e: seq<LegacyEvent>)
    ensures DmSet(log + [e]) == DmSet(log) + (if DmTo(e).Some? then {DmTo(e).value} else {})
  {
    assert (log + [e])[..|log|] == log;
  }

  /** Appending a row whose DM, if any, is to an untried username keeps every DM fresh. */
  lemma FreshDmsAppend(log: seq<seq<LegacyEvent>>, e: seq<LegacyEvent>)
    requires FreshDms(log)
    requires DmTo(e).Some? ==> DmTo(e).value !in DmSet(log)
    ensures FreshDms(log + [e])
  {
    forall k | 0 <= k < |log + [e]| && DmTo((log + [e])[k]).Some?
      ensures DmTo((log + [e])[k]).value !in DmSet((log + [e])[..k])
    {
      if k < |log| {
        assert (log + [e])[..k] == log[..k];
      } else {
        assert (log + [e])[..k] == log;
      }
    }
  }

  /** A DM'd username of an earlier row is in the DM set of every longer prefix. */
  lemma {:induction false} DmSetHolds(log: seq<seq<LegacyEvent>>, a: nat, b: nat)
    requires a < b <= |log| && DmTo(log[a]).Some?
    ensures DmTo(log[a]).value in DmSet(log[..b])
    decreases b
  {
    assert log[..b][..b - 1] == log[..b - 1];
    if a < b - 1 {
      DmSetHolds(log, a, b - 1);
    }
  }

  /** Fresh DMs are pairwise distinct: no username is DM'd twice in a run. */
  lemma FreshDmsAreDistinct(log: seq<seq<LegacyEvent>>, a: nat, b: nat)
    requires FreshDms(log) && a < b < |log| && DmTo(log[a]).Some? && DmTo(log[b]).Some?
    ensures DmTo(log[a]).value != DmTo(log[b]).value
  {
    DmSetHolds(log, a, b);
  }

  /** What one run of `dm_from_sheet` leaves: the events per record visited, the tried set, and the exception that ended it early, if any. */
  datatype LegacyRun = LegacyRun(log: seq<seq<LegacyEvent>>, tried: set<string>, error: Option<Error>)

  /**
   * The events logged for each visited record are the loop body's, given the
   * usernames DM'd before it.
   */
  predicate Replays(testMode: bool, defaultMessage: string, w: LegacyWorld, records: seq<Row>, log: seq<seq<LegacyEvent>>)
    decreases |log|
  {
    && |log| <= |records|
    && (|log| > 0 ==>
          && Replays(testMode, defaultMessage, w, records, log[..|log| - 1])
          && Ok(log[|log| - 1]) == VisitRecord(testMode, defaultMessage, w, records[|log| - 1], |log| - 1, DmSet(log[..|log| - 1])))
  }

  /** Record by record: the events of record `k` are what the loop body makes of it. */
  lemma {:induction false} ReplaysEach(testMode: bool, defaultMessage: string, w: LegacyWorld, records: seq<Row>, log: seq<seq<LegacyEvent>>, k: nat)
    requires Replays(testMode, defaultMessage, w, records, log) && k < |log|
    ensures Ok(log[k]) == VisitRecord(testMode, defaultMessage, w, records[k], k, DmSet(log[..k]))
    decreases |log|
  {
    if k < |log| - 1 {
      var shorter := log[..|log| - 1];
      assert shorter[k] == log[k] && shorter[..k] == log[..k];
      ReplaysEach(testMode, defaultMessage, w, records, shorter, k);
    }
  }

  /** The loop invariant of `dm_from_sheet` after `|log|` records. */
  predicate Visited(records: seq<Row>, log: seq<seq<LegacyEvent>>, tried: set<string>) {
    && |log| <= |records|
    && tried == DmSet(log)
    && FreshDms(log)
    && (forall k :: 0 <= k < |log| ==> RowShape(log[k], k))
    && (forall k :: 0 <= k < |log| && Marked(records[k]) ==> log[k] == [])
  }

  /** A visited record extends the replayed log. */
  lemma ReplaysAppend(testMode: bool, defaultMessage: string, w: LegacyWorld, records: seq<Row>, log: seq<seq<LegacyEvent>>, e: seq<LegacyEvent>)
    requires Replays(testMode, defaultMessage, w, records, log) && |log| < |records|
    requires Ok(e) == VisitRecord(testMode, defaultMessage, w, records[|log|], |log|, DmSet(log))
    ensures Replays(testMode, defaultMessage, w, records, log + [e])
  {
    assert (log + [e])[..|log|] == log;
  }

  /** A visited record keeps the invariant. */
  lemma VisitedAppend(records: seq<Row>, log: seq<seq<LegacyEvent>>, e: seq<LegacyEvent>)
    requires Visited(records, log, DmSet(log)) && |log| < |records|
    requires RowShape(e, |log|) && (Marked(records[|log|]) ==> e == [])
    requires DmTo(e).Some? ==> DmTo(e).value !in DmSet(log)
    ensures Visited(records, log + [e], DmSet(log + [e]))
  {
    FreshDmsAppend(log, e);
    forall k | 0 <= k < |log| + 1
      ensures RowShape((log + [e])[k], k) && (Marked(records[k]) ==> (log + [e])[k] == [])
    {
      if k < |log| {
        assert (log + [e])[k] == log[k];
      }
    }
  }

  /** One pass of the loop body keeps the invariant. */
  lemma VisitStep(testMode: bool, defaultMessage: string, w: LegacyWorld, records: seq<Row>, log: seq<seq<LegacyEvent>>, e: seq<LegacyEvent>)
    requires Visited(records, log, DmSet(log)) && Replays(testMode, defaultMessage, w, records, log) && |log| < |records|
    requires Ok(e) == VisitRecord(testMode, defaultMessage, w, records[|log|], |log|, DmSet(log))
    ensures Visited(records, log + [e], DmSet(log + [e])) && Replays(testMode, defaultMessage, w, records, log + [e])
  {
    assert DmTo(e).Some? ==> DmTo(e).value !in DmSet(log);
    VisitedAppend(records, log, e);
    ReplaysAppend(testMode, defaultMessage, w, records, log, e);
  }

  /**
   * `dm_from_sheet()` over the records `get_all_records()` returned: rows
   * marked or without a URL are passed over, each username is tried at most
   * once, and a numeric URL raises out of the loop.
   */
  method DmFromSheet(testMode: bool, defaultMessage: string, w: LegacyWorld, records: seq<Row>) returns (r: LegacyRun)
    ensures Visited(records, r.log, r.tried)
    ensures Replays(testMode, defaultMessage, w, records, r.log)
    ensures r.error.None? <==> |r.log| == |records|
    ensures r.error.Some? ==> !Marked(records[|r.log|]) && records[|r.log|][UrlKey].Number?
  {
    var log: seq<seq<LegacyEvent>> := [];
    var i := 0;
    while i < |records|
      invariant i == |log| && Visited(records, log, DmSet(log))
      invariant Replays(testMode, defaultMessage, w, records, log)
    {
      var visit := VisitRecord(testMode, defaultMessage, w, records[i], i, DmSet(log));
      if visit.Err? {
        return LegacyRun(log, DmSet(log), Some(visit.error));
      }
      VisitStep(testMode, defaultMessage, w, records, log, visit.value);
      log := log + [visit.value];
      i := i + 1;
    }
    return LegacyRun(log, DmSet(log), None);
  }

  /** The script's entry: log in, then one pass over the records; a failed login ends it with nothing done. */
  method RunScript(testMode: bool, defaultMessage: string, loginAccepted: bool, w: LegacyWorld, records: seq<Row>)
    returns (r: Option<LegacyRun>)
    ensures !loginAccepted <==> r.None?
    ensures r.Some? ==> Visited(records, r.value.log, r.value.tried)
    ensures r.Some? ==> Replays(testMode, defaultMessage, w, records, r.value.log)
    ensures r.Some? ==> (r.value.error.None? <==> |r.value.log| == |records|)
    ensures r.Some? && r.value.error.Some? ==>
      !Marked(records[|r.value.log|]) && records[|r.value.log|][UrlKey].Number?
  {
    if !loginAccepted {
      return None;
    }
    var run := DmFromSheet(testMode, defaultMessage, w, records);
    return Some(run);
  }

  /** One field of the re-read row after the status write. */
  lemma MarkField(g: Grid, i: nat, h: string)
    requires i + 1 < |g| && UniqueHeaders(g) && |g[0]| >= StatusColumn && h in Headers(g)
    ensures var g2 := SetCell(g, i + 2, StatusColumn, Text(MessagedMarker));
      h in Records(g2)[i] && h in Records(g)[i] &&
      Records(g2)[i][h] == if h == Headers(g)[StatusColumn - 1] then Text(MessagedMarker) else Records(g)[i][h]
  {
    var g2 := SetCell(g, i + 2, StatusColumn, Text(MessagedMarker));
    var hs := Headers(g);
    assert g2[0] == g[0];
    assert Headers(g2) == hs;
    var j := FirstIndex(hs, h).value;
    assert hs[j] == h;
    RecordReadsRow(g, i, j);
    RecordReadsRow(g2, i, j);
    assert g2[i + 1] == g[i + 1][StatusColumn - 1 := Text(MessagedMarker)];
    if j == StatusColumn - 1 {
      assert g2[i + 1][j] == Text(MessagedMarker);
    } else {
      assert h != hs[StatusColumn - 1];
      assert g2[i + 1][j] == g[i + 1][j];
    }
  }

  /**
   * The status write lands in column 13 whatever header is there: re-read,
   * the row's record shows the marker under that header and nothing else changes.
   */
  lemma MarkLandsInColumnM(g: Grid, i: nat)
    requires i + 1 < |g| && UniqueHeaders(g) && |g[0]| >= StatusColumn
    ensures var after := Records(SetCell(g, i + 2, StatusColumn, Text(MessagedMarker)))[i];
      && after.Keys == Records(g)[i].Keys
      && forall h :: h in after ==>
           after[h] == if h == Headers(g)[StatusColumn - 1] then Text(MessagedMarker) else Records(g)[i][h]
  {
    var g2 := SetCell(g, i + 2, StatusColumn, Text(MessagedMarker));
    assert g2[0] == g[0];
    assert Headers(g2) == Headers(g);
    forall h | h in Records(g2)[i]
      ensures Records(g2)[i][h] == if h == Headers(g)[StatusColumn - 1] then Text(MessagedMarker) else Records(g)[i][h]
    {
      MarkField(g, i, h);
    }
  }

  /** So the next run skips the row exactly when column 13 is the "Status" column (or it has no URL). */
  lemma MarkedNextRunIff(g: Grid, i: nat)
    requires i + 1 < |g| && UniqueHeaders(g) && |g[0]| >= StatusColumn
    requires StatusKey in Headers(g) && Headers(g)[StatusColumn - 1] != UrlKey
    requires Get(Records(g)[i], StatusKey) != Some(Text(MessagedMarker))
    ensures Marked(Records(SetCell(g, i + 2, StatusColumn, Text(MessagedMarker)))[i]) <==>
      Headers(g)[StatusColumn - 1] == StatusKey || Blank(Records(g)[i], UrlKey)
  {
    MarkLandsInColumnM(g, i);
  }
}

=== FILE: metrics.dfy ===
/** Per-run counters and their report. */
module Metrics {

  datatype Metrics = Metrics(totalAttempts: nat, successfulSends: nat, failedSends: nat, repliesReceived: nat)

  /** `Metrics()`: every counter starts at zero. */
  function Init(): (m: Metrics)
    ensures m.totalAttempts == m.successfulSends == m.failedSends == m.repliesReceived == 0
  {
    Metrics(0, 0, 0, 0)
  }

  /** `record_attempt(success)`: one more attempt, counted as a success or a failure. */
  function RecordAttempt(m: Metrics, success: bool): (m': Metrics)
    ensures m'.totalAttempts == m.totalAttempts + 1
    ensures m'.successfulSends == m.successfulSends + (if success then 1 else 0)
    ensures m'.failedSends == m.failedSends + (if success then 0 else 1)
    ensures m'.repliesReceived == m.repliesReceived
  {
    var m1 := m.(totalAttempts := m.totalAttempts + 1);
    if success then m1.(successfulSends := m.successfulSends + 1)
    else m1.(failedSends := m.failedSends + 1)
  }

  /** `record_reply()`: only the reply counter moves. */
  function RecordReply(m: Metrics): (m': Metrics)
    ensures m' == m.(repliesReceived := m.repliesReceived + 1)
  {
    Metrics(m.totalAttempts, m.successfulSends, m.failedSends, m.repliesReceived + 1)
  }

  /** The reply rate before floating-point division: zero, or replies * 100 over successful sends. */
  datatype ReplyRate = Zero | Ratio(numerator: nat, denominator: nat)

  datatype Report = Report(totalAttempts: nat, successfulSends: nat, failedSends: nat,
                           repliesReceived: nat, replyRate: ReplyRate)

  /** `report()`: the counters as they stand, and the reply rate. */
  function MakeReport(m: Metrics): (r: Report)
    ensures r.totalAttempts == m.totalAttempts && r.successfulSends == m.successfulSends
    ensures r.failedSends == m.failedSends && r.repliesReceived == m.repliesReceived
    ensures r.replyRate == Zero <==> m.successfulSends == 0
    ensures r.replyRate.Ratio? ==> (r.replyRate.denominator == m.successfulSends
                                    && r.replyRate.numerator == 100 * m.repliesReceived)
  {
    Report(m.totalAttempts, m.successfulSends, m.failedSends, m.repliesReceived,
           if m.successfulSends > 0 then Ratio(m.repliesReceived * 100, m.successfulSends) else Zero)
  }

  /** One call a run makes on the counters. */
  datatype Call = Attempt(success: bool) | Reply

  function Apply(m: Metrics, c: Call): Metrics {
    match c
    case Attempt(success) => RecordAttempt(m, success)
    case Reply => RecordReply(m)
  }

  /** The counters after a fresh `Metrics()` receives `calls` in order. */
  function Replay(calls: seq<Call>): Metrics
    decreases |calls|
  {
    if |calls| == 0 then Init() else Apply(Replay(calls[..|calls| - 1]), calls[|calls| - 1])
  }

  function CountAttempts(calls: seq<Call>, success: bool): nat
    decreases |calls|
  {
    if |calls| == 0 then 0
    else CountAttempts(calls[..|calls| - 1], success) + (if calls[|calls| - 1] == Attempt(success) then 1 else 0)
  }

  function CountReplies(calls: seq<Call>): nat
    decreases |calls|
  {
    if |calls| == 0 then 0
    else CountReplies(calls[..|calls| - 1]) + (if calls[|calls| - 1] == Reply then 1 else 0)
  }

  /**
   * After any sequence of calls every attempt is either a success or a failure,
   * and each counter counts exactly its calls.
   */
  lemma {:induction false} ReplayCounts(calls: seq<Call>)
    ensures Replay(calls).totalAttempts == Replay(calls).successfulSends + Replay(calls).failedSends
    ensures Replay(calls).successfulSends == CountAttempts(calls, true)
    ensures Replay(calls).failedSends == CountAttempts(calls, false)
    ensures Replay(calls).repliesReceived == CountReplies(calls)
    decreases |calls|
  {
    if |calls| > 0 {
      ReplayCounts(calls[..|calls| - 1]);
    }
  }
}

=== FILE: next_run.dfy ===
/**
 * What the next run of `run()` reads back from a lead's row after this run
 * sent to it or failed to. These relate `process_lead`'s writes to the drip
 * engine's reading of the same three fields, so they state how a lead moves
 * through the sequence from one run to the next.
 */
module NextRun {
  import opened Wrappers
  import opened Strings
  import opened Dates
  import opened Rows
  import opened DripEngine
  import RateLimiter
  import opened SheetsService
  import opened InstagramService
  import opened Orchestrator

  /** Overlaying the "sending..." marker first makes no difference to an update that names the status. */
  lemma MarkerOverwritten(rec: Row, updates: Updates)
    requires Lookup(updates, StatusKey).Some?
    ensures Overlay(Overlay(rec, SendingMarker), updates) == Overlay(rec, updates)
  {
    var marked := Overlay(rec, SendingMarker);
    forall h | h in rec
      ensures Overlay(marked, updates)[h] == Overlay(rec, updates)[h]
    {
      if h != StatusKey {
        assert Lookup(SendingMarker, h).None?;
      }
    }
  }

  /**
   * The "sending..." write followed by a write that names the status too
   * leaves the re-read record as if only the second write had happened.
   */
  lemma MarkedThenRecorded(g: Grid, i: nat, updates: Updates)
    requires i + 1 < |g| && UniqueHeaders(g)
    requires Lookup(updates, StatusKey).Some?
    ensures var g1 := UpdateLeadFields(g, i + 2, SendingMarker, NoFault).0;
      Records(UpdateLeadFields(g1, i + 2, updates, NoFault).0)[i] == Overlay(Records(g)[i], updates)
  {
    LeadRowWriteSucceeds(g, i, SendingMarker);
    ReadBack(g, i, SendingMarker, NoFault);
    var g1 := UpdateLeadFields(g, i + 2, SendingMarker, NoFault).0;
    assert g1[0] == g[0];
    assert Headers(g1) == Headers(g);
    LeadRowWriteSucceeds(g1, i, updates);
    ReadBack(g1, i, updates, NoFault);
    MarkerOverwritten(Records(g)[i], updates);
  }

  /** The record the result update leaves: the three drip fields replaced, every other field kept. */
  lemma ResultOverlay(e: Engine, row: Row, n: int, today: Date)
    requires Valid(today)
    requires StatusKey in row && MessageNumberKey in row && LastMessageDateKey in row
    ensures Overlay(row, ResultUpdates(e, n, today)) ==
      row[StatusKey := Text(if MarkCompleted(e, n) then "completed" else "messaged")]
         [MessageNumberKey := Number(n)][LastMessageDateKey := Text(FormatDate(today))]
  {
    var u := ResultUpdates(e, n, today);
    var lead := Overlay(row, u);
    var expected := row[StatusKey := Text(if MarkCompleted(e, n) then "completed" else "messaged")]
                       [MessageNumberKey := Number(n)][LastMessageDateKey := Text(FormatDate(today))];
    forall h | h in row
      ensures lead[h] == expected[h]
    {
      if h != StatusKey && h != MessageNumberKey && h != LastMessageDateKey {
        assert Lookup(u, h).None?;
      }
    }
  }

  /** The drip fields of the record the result update leaves, as the drip engine parses them. */
  lemma ResultFields(row: Row, word: string, n: int, today: Date)
    requires Valid(today) && today.year >= 1000 && !Blank(row, UrlKey)
    requires word == "completed" || word == "messaged"
    ensures var lead := row[StatusKey := Text(word)][MessageNumberKey := Number(n)][LastMessageDateKey := Text(FormatDate(today))];
      && MessageNumber(lead) == Ok(n)
      && LastDate(lead) == Ok(Some(today))
      && Status(lead) == word
      && !Blank(lead, UrlKey)
  {
    var lead := row[StatusKey := Text(word)][MessageNumberKey := Number(n)][LastMessageDateKey := Text(FormatDate(today))];
    LowerOfLowercase(word);
    ParseFormatRoundTrip(today);
    assert FormatDate(today) != "";
    assert lead[UrlKey] == row[UrlKey];
  }

  /**
   * How the drip engine reads the record the result update leaves: the
   * number sent, today's date, and "completed" or "messaged". A completed lead
   * is skipped from then on; any other is due again exactly `delay_days` after
   * today, except a message numbered 0 (after a stored -1), which is due at once.
   */
  lemma ResultRecord(e: Engine, row: Row, n: int, today: Date, later: Date)
    requires Valid(today) && Valid(later) && today.year >= 1000
    requires StatusKey in row && MessageNumberKey in row && LastMessageDateKey in row && !Blank(row, UrlKey)
    ensures var lead := Overlay(row, ResultUpdates(e, n, today));
      && MessageNumber(lead) == Ok(n)
      && LastDate(lead) == Ok(Some(today))
      && (ShouldSkip(lead) <==> MarkCompleted(e, n))
      && (n != 0 ==> ShouldSend(e, lead, later) == Ok(!MarkCompleted(e, n) && DayNumber(later) - DayNumber(today) >= e.delayDays))
      && (n == 0 ==> ShouldSend(e, lead, later) == Ok(!MarkCompleted(e, n)))
  {
    ResultOverlay(e, row, n, today);
    ResultFields(row, if MarkCompleted(e, n) then "completed" else "messaged", n, today);
    DecisionsAfterSend(e, Overlay(row, ResultUpdates(e, n, today)), n, today, later);
  }

  /** The skip filter's and the drip engine's reading of a lead that was just sent message `n`. */
  lemma DecisionsAfterSend(e: Engine, lead: Row, n: int, today: Date, later: Date)
    requires Valid(today) && Valid(later)
    requires MessageNumber(lead) == Ok(n) && LastDate(lead) == Ok(Some(today)) && !Blank(lead, UrlKey)
    requires Status(lead) == if MarkCompleted(e, n) then "completed" else "messaged"
    ensures ShouldSkip(lead) <==> MarkCompleted(e, n)
    ensures n != 0 ==> ShouldSend(e, lead, later) == Ok(!MarkCompleted(e, n) && DayNumber(later) - DayNumber(today) >= e.delayDays)
    ensures n == 0 ==> ShouldSend(e, lead, later) == Ok(!MarkCompleted(e, n))
  {
    assert SkipStatuses[0] == "completed";
    assert "messaged" !in SkipStatuses;
    if !MarkCompleted(e, n) {
      assert !IsTerminal(Status(lead));
    }
  }

  /**
   * The record the "sending..." write leaves: only the status changes, so the
   * lead is not skipped on that account and the drip engine decides as before.
   */
  lemma MarkedRecord(e: Engine, row: Row, later: Date)
    requires Valid(later) && StatusKey in row && !IsTerminal(Status(row))
    ensures var lead := Overlay(row, SendingMarker);
      && lead == row[StatusKey := Text("sending...")]
      && (ShouldSkip(lead) <==> Blank(row, UrlKey))
      && MessageNumber(lead) == MessageNumber(row)
      && LastDate(lead) == LastDate(row)
      && ShouldSend(e, lead, later) == ShouldSend(e, row, later)
  {
    var lead := Overlay(row, SendingMarker);
    var expected := row[StatusKey := Text("sending...")];
    forall h | h in lead
      ensures h in expected && lead[h] == expected[h]
    {
      if h != StatusKey {
        assert Lookup(SendingMarker, h).None?;
      }
    }
    SameRecord(lead, expected);
    LowerOfLowercase("sending...");
    assert Status(lead) == "sending...";
    ShouldSendReadsDripFields(e, lead, row, later);
  }

  /**
   * A lead sent to, with both of its writes going through, reads back on the
   * next run with the number sent, today's date and a status saying whether
   * the sequence is complete: skipped from then on when it is, due again
   * `delay_days` after today when it is not (at once when it is numbered 0,
   * after a stored -1).
   */
  lemma SentLeadReadsBack(s: Settings, w: World, today: Date, client: Client, g: Grid, sentToday: int, i: nat, later: Date)
    requires Valid(today) && Valid(later) && today.year >= 1000 && RateLimiter.Valid(s.limiter)
    requires i + 1 < |g| && UniqueHeaders(g)
    requires StatusKey in Headers(g) && MessageNumberKey in Headers(g) && LastMessageDateKey in Headers(g)
    requires w.markerFault(i) == NoFault && w.resultFault(i) == NoFault
    requires !ShouldSkip(Records(g)[i])
    requires ProcessLead(s, w, today, client, g, sentToday, Records(g)[i], i).outcome == Sent
    ensures var row := Records(g)[i];
      var n := NextMessageNumber(row).value;
      var lead := Records(ProcessLead(s, w, today, client, g, sentToday, row, i).grid)[i];
      && lead == row[StatusKey := Text(if n == s.engine.maxSequence then "completed" else "messaged")]
                    [MessageNumberKey := Number(n)][LastMessageDateKey := Text(FormatDate(today))]
      && MessageNumber(lead) == Ok(n) && n <= s.engine.maxSequence
      && LastDate(lead) == Ok(Some(today))
      && (ShouldSkip(lead) <==> n == s.engine.maxSequence)
      && (n != 0 ==> ShouldSend(s.engine, lead, later) == Ok(n < s.engine.maxSequence && DayNumber(later) - DayNumber(today) >= s.engine.delayDays))
      && (n == 0 ==> ShouldSend(s.engine, lead, later) == Ok(n < s.engine.maxSequence))
  {
    var row := Records(g)[i];
    var step := ProcessLead(s, w, today, client, g, sentToday, row, i);
    ProcessLeadDelivers(s, w, today, client, g, sentToday, row, i);
    var n := NextMessageNumber(row).value;
    SentNumberWithinSequence(s.engine, row, today);
    var updates := ResultUpdates(s.engine, n, today);
    var g1 := UpdateLeadFields(g, i + 2, SendingMarker, NoFault).0;
    assert step.grid == UpdateLeadFields(g1, i + 2, updates, NoFault).0;
    assert Lookup(updates, StatusKey).Some?;
    MarkedThenRecorded(g, i, updates);
    ResultOverlay(s.engine, row, n, today);
    ResultRecord(s.engine, row, n, today, later);
  }

  /**
   * A lead whose send failed, with its "sending..." write gone through, reads
   * back on the next run with only its status changed: it is not skipped and
   * is still due, so the next run tries it again.
   */
  lemma FailedLeadIsRetried(s: Settings, w: World, today: Date, client: Client, g: Grid, sentToday: int, i: nat, later: Date)
    requires Valid(today) && Valid(later) && RateLimiter.Valid(s.limiter)
    requires i + 1 < |g| && UniqueHeaders(g) && StatusKey in Headers(g)
    requires w.markerFault(i) == NoFault
    requires !ShouldSkip(Records(g)[i])
    requires ProcessLead(s, w, today, client, g, sentToday, Records(g)[i], i).outcome == SendFailed
    ensures var row := Records(g)[i];
      var lead := Records(ProcessLead(s, w, today, client, g, sentToday, row, i).grid)[i];
      && lead == row[StatusKey := Text("sending...")]
      && !ShouldSkip(lead)
      && MessageNumber(lead) == MessageNumber(row) && LastDate(lead) == LastDate(row)
      && ShouldSend(s.engine, lead, today) == Ok(true)
      && ShouldSend(s.engine, lead, later) == ShouldSend(s.engine, row, later)
  {
    var row := Records(g)[i];
    var step := ProcessLead(s, w, today, client, g, sentToday, row, i);
    ProcessLeadDelivers(s, w, today, client, g, sentToday, row, i);
    assert step.grid == UpdateLeadFields(g, i + 2, SendingMarker, NoFault).0;
    LeadRowWriteSucceeds(g, i, SendingMarker);
    ReadBack(g, i, SendingMarker, NoFault);
    MarkedRecord(s.engine, row, later);
    MarkedRecord(s.engine, row, today);
  }
}

=== FILE: orchestrator.dfy ===
/**
 * `DripOrchestrator` (main.py): one run over the lead rows, with the skip
 * filter, the daily cap, the "sending..." checkpoint written before each send
 * and the state written back to the row afterwards.
 *
 * main.py does not match the classes it calls. The model follows the evident
 * intent, and these are the mismatches:
 * - it reads its settings as attributes of the `config` module, while they
 *   live on `config.settings`; here they are the `Settings` datatype;
 * - it builds the limiter with `min_delay_seconds`/`max_delay_seconds`, while
 *   the constructor takes `min_seconds`/`max_seconds`; here `Settings.limiter`
 *   is an already constructed limiter;
 * - it increments `metrics.skipped`, `metrics.sent` and `metrics.failed`,
 *   which `Metrics` does not define (read literally, the increment after a
 *   successful send raises before the result update is written); here they
 *   are the `Counters` datatype;
 * - it calls `generate_custom_dm(bio, template)` on a service module that is
 *   not part of this model; here the text comes from `AiEngine.GenerateCustomDm`
 *   and the template is only recorded in the `Compose` event.
 */
module Orchestrator {
  import opened Wrappers
  import opened Strings
  import opened Dates
  import opened Rows
  import opened Urls
  import opened DripEngine
  import RateLimiter
  import opened SheetsService
  import opened InstagramService
  import opened AiEngine

  /** The configured values the orchestrator reads. */
  datatype Settings = Settings(
    maxDailyMessages: int,
    engine: Engine,
    limiter: RateLimiter.Limiter,
    templates: map<int, string>,
    defaultMessage: string,
    sessionId: string,
    testMode: bool)

  /**
   * What the collaborators answer, indexed by the lead's position in the lead
   * list: the session login, whether reading the sheet succeeds, the profile
   * `user_info_by_username` returns (None when it raises), the generated reply
   * (None when generation raises), whether `direct_send` succeeds, where each
   * of the two sheet updates fails, and the rate limiter's random draw.
   */
  datatype World = World(
    loginAccepted: bool,
    leadsReadable: bool,
    profile: nat -> Option<UserInfo>,
    generated: nat -> Option<string>,
    sendAccepted: nat -> bool,
    markerFault: nat -> Fault,
    resultFault: nat -> Fault,
    pauseDraw: nat -> nat)

  /** The collaborator calls a lead causes, in order; `row` is the sheet row. */
  datatype Event =
    | FetchProfile(row: int, username: string)
    | Compose(row: int, biography: Option<string>, template: Option<string>)
    | UpdateFields(row: int, updates: Updates, ok: bool)
    | SendDm(row: int, recipient: int, text: string, ok: bool)
    | Pause(row: int, seconds: int)

  /** What became of one lead. */
  datatype Outcome =
    | Skipped          // `should_skip` held
    | NotDue           // `should_send` said no
    | Rejected         // no valid profile
    | Sent
    | SendFailed
    | Raised(error: Error)
    | Capped           // the daily cap was reached; the run stops

  /** The outcomes that write to the lead's row. */
  predicate Writes(o: Outcome) {
    o == Sent || o == SendFailed
  }

  /** The run's counters of sent, not-due and failed leads. */
  datatype Counters = Counters(sent: nat, skipped: nat, failed: nat)

  /** The counter an outcome moves: `sent`, `skipped` (not due) or `failed` (no valid profile, or the send failed). */
  function Bump(c: Counters, o: Outcome): Counters {
    match o
    case Sent => c.(sent := c.sent + 1)
    case NotDue => c.(skipped := c.skipped + 1)
    case Rejected => c.(failed := c.failed + 1)
    case SendFailed => c.(failed := c.failed + 1)
    case _ => c
  }

  /** The statuses `should_skip` passes over, compared after lowercasing. */
  const SkipStatuses: seq<string> := ["completed", "replied", "messaged ✅"]

  /** `should_skip(row)`: no URL, or a finished or already messaged status. */
  predicate ShouldSkip(row: Row) {
    Blank(row, UrlKey) || Status(row) in SkipStatuses
  }

  /** Every status the drip engine treats as final is one the skip filter passes over. */
  lemma TerminalIsSkipped(row: Row)
    requires IsTerminal(Status(row))
    ensures ShouldSkip(row)
  {
  }

  /**
   * The checkpoint status does not make a lead skipped: a lead left at
   * "sending..." is looked at again, whatever its case.
   */
  lemma SendingIsNotSkipped(row: Row)
    requires !Blank(row, UrlKey) && StatusKey in row && row[StatusKey].Text?
    requires Lower(row[StatusKey].s) == "sending..."
    ensures !ShouldSkip(row)
  {
  }

  /**
   * A lead whose status cell the sheet read as a number is never skipped
   * and never terminal: a number does not render as any word status.
   */
  lemma NumericStatusIsLive(row: Row)
    requires !Blank(row, UrlKey) && StatusKey in row && row[StatusKey].Number?
    ensures !ShouldSkip(row) && !IsTerminal(Status(row))
  {
    forall word | word in SkipStatuses ensures Status(row) != word {
      NumberStatusIsNotAWord(row, word);
    }
    NumberStatusIsNotAWord(row, "replied");
  }

  /** `extract_username(url)`: the last path segment of the URL. */
  function ExtractUsername(url: string): (username: string)
    ensures '/' !in username
    ensures forall slashes :: AllSlashes(slashes) ==> Username(Strip(url) + slashes) == username
    ensures forall w1, w2 :: AllSpace(w1) && AllSpace(w2) ==> Username(w1 + url + w2) == username
  {
    forall slashes | AllSlashes(slashes)
      ensures Username(Strip(url) + slashes) == Username(url)
    {
      UsernameIgnoresTrailingSlashes(url, slashes);
    }
    forall w1, w2 | AllSpace(w1) && AllSpace(w2)
      ensures Username(w1 + url + w2) == Username(url)
    {
      UsernameIgnoresSurroundingSpace(w1, url, w2);
    }
    Username(url)
  }

  /** The checkpoint written before a send. */
  const SendingMarker: Updates := [(StatusKey, Text("sending..."))]

  /** The update written after a successful send of message number `n`. */
  function ResultUpdates(e: Engine, n: int, today: Date): (u: Updates)
    requires Valid(today)
    ensures |u| == 3 && u[0].0 == StatusKey && u[1].0 == MessageNumberKey && u[2].0 == LastMessageDateKey
  {
    [(StatusKey, Text(if MarkCompleted(e, n) then "completed" else "messaged")),
     (MessageNumberKey, Number(n)),
     (LastMessageDateKey, Text(FormatDate(today)))]
  }

  /**
   * The events of one lead: a send, if there is one, is the fourth event and
   * comes right after the "sending..." write for the same row.
   */
  predicate CheckpointBeforeSend(t: seq<Event>) {
    forall j :: 0 <= j < |t| && t[j].SendDm? ==>
      j == 3 && t[2].UpdateFields? && t[2].row == t[3].row && t[2].updates == SendingMarker
  }

  /** A row that changed at most in the columns the update map names. */
  predicate OnlyTargetedChanged(hs: seq<string>, updates: Updates, before: seq<Cell>, after: seq<Cell>) {
    |after| == |before| && forall j :: 0 <= j < |before| && !TargetedFrom(hs, updates, 0, j) ==> after[j] == before[j]
  }

  /** The URL field holds text, so `extract_username` can run on it. */
  predicate UrlIsText(row: Row) {
    UrlKey in row && row[UrlKey].Text?
  }

  /** The lead gets as far as composing a message: below the cap, due, a text URL and a valid profile. */
  predicate Attempted(s: Settings, w: World, today: Date, client: Client, sentToday: int, row: Row, i: nat)
    requires Valid(today)
  {
    && sentToday < s.maxDailyMessages
    && ShouldSend(s.engine, row, today) == Ok(true)
    && UrlIsText(row)
    && GetValidUser(client, w.profile(i)).Some?
  }

  /** One lead's step: its outcome, the sheet afterwards and the calls made. */
  datatype Step = Step(outcome: Outcome, grid: Grid, events: seq<Event>)

  /** The "sending..." write for sheet row `i + 2`, and the event recording it. */
  function Checkpoint(g: Grid, i: nat, fault: Fault): (r: (Grid, Event))
    ensures SameShape(r.0, g)
    ensures forall x :: 0 <= x < |g| && x != i + 1 ==> r.0[x] == g[x]
    ensures i + 1 < |g| ==> OnlyTargetedChanged(Headers(g), SendingMarker, g[i + 1], r.0[i + 1])
    ensures r.1.UpdateFields? && r.1.row == i + 2 && r.1.updates == SendingMarker
    ensures r.1.ok <==>
      && fault != HeaderReadFails
      && (StatusKey in Headers(g) ==> i + 1 < |g| && fault != WriteFails(0))
  {
    var written := UpdateLeadFields(g, i + 2, SendingMarker, fault);
    (written.0, UpdateFields(i + 2, SendingMarker, written.1))
  }

  /**
   * What follows a successful send: the result update for message `n` in
   * sheet row `i + 2`, then the rate limiter's pause.
   */
  function RecordSuccess(s: Settings, w: World, today: Date, g: Grid, i: nat, n: int): (r: (Grid, seq<Event>))
    requires Valid(today) && RateLimiter.Valid(s.limiter)
    ensures SameShape(r.0, g)
    ensures forall x :: 0 <= x < |g| && x != i + 1 ==> r.0[x] == g[x]
    ensures i + 1 < |g| ==> OnlyTargetedChanged(Headers(g), ResultUpdates(s.engine, n, today), g[i + 1], r.0[i + 1])
    ensures |r.1| == 2 && r.1[0].UpdateFields? && r.1[0].row == i + 2
    ensures r.1[0].updates == ResultUpdates(s.engine, n, today)
    ensures r.1[1].Pause? && s.limiter.minSeconds <= r.1[1].seconds <= s.limiter.maxSeconds
  {
    var updates := ResultUpdates(s.engine, n, today);
    var written := UpdateLeadFields(g, i + 2, updates, w.resultFault(i));
    (written.0, [UpdateFields(i + 2, updates, written.1), Pause(i + 2, RateLimiter.Delay(s.limiter, w.pauseDraw(i)))])
  }

  /**
   * The part of `process_lead` after a valid profile: compose the message,
   * write the "sending..." checkpoint, send, and on success write the result
   * and pause. `n` is the number of the message being sent.
   */
  function Deliver(s: Settings, w: World, today: Date, client: Client, g: Grid, i: nat, username: string,
                   user: UserInfo, n: int): (r: Step)
    requires Valid(today) && RateLimiter.Valid(s.limiter)
    ensures r.outcome == Sent <==> SendMessage(client, w.sendAccepted(i)).ok
    ensures r.outcome == SendFailed <==> !SendMessage(client, w.sendAccepted(i)).ok
    ensures SameShape(r.grid, g)
    ensures forall x :: 0 <= x < |g| && x != i + 1 ==> r.grid[x] == g[x]
    ensures CheckpointBeforeSend(r.events) && 4 <= |r.events| && r.events[0] == FetchProfile(i + 2, username)
    ensures r.events[2] == Checkpoint(g, i, w.markerFault(i)).1
    ensures r.events[3].SendDm? && r.events[3].recipient == user.pk
    ensures r.outcome == SendFailed ==> |r.events| == 4 && r.grid == Checkpoint(g, i, w.markerFault(i)).0
    ensures r.outcome == Sent ==>
      && |r.events| == 6
      && r.events[4].UpdateFields? && r.events[4].row == i + 2
      && r.events[4].updates == ResultUpdates(s.engine, n, today)
      && r.events[5].Pause?
      && s.limiter.minSeconds <= r.events[5].seconds <= s.limiter.maxSeconds
    ensures r.outcome == Sent ==> r.grid == RecordSuccess(s, w, today, Checkpoint(g, i, w.markerFault(i)).0, i, n).0
  {
    var idx := i + 2;
    var template := if n in s.templates then Some(s.templates[n]) else None;
    var text := GenerateCustomDm(s.defaultMessage, w.generated(i));
    var marked := Checkpoint(g, i, w.markerFault(i));
    var sent := SendMessage(client, w.sendAccepted(i));
    var prefix := [FetchProfile(idx, username), Compose(idx, user.biography, template), marked.1,
                   SendDm(idx, user.pk, text, sent.ok)];
    assert CheckpointBeforeSend(prefix) by { SendFourth(prefix); }
    if sent.ok then
      var finish := RecordSuccess(s, w, today, marked.0, i, n);
      assert CheckpointBeforeSend(prefix + finish.1) by { SendFourth(prefix + finish.1); }
      Step(Sent, finish.0, prefix + finish.1)
    else Step(SendFailed, marked.0, prefix)
  }

  /**
   * The lead's row after `Deliver` differs from before at most in the
   * "sending..." column when the send failed, and at most in the result's
   * three columns when it went through.
   */
  lemma DeliverColumns(s: Settings, w: World, today: Date, client: Client, g: Grid, i: nat, username: string,
                       user: UserInfo, n: int)
    requires Valid(today) && RateLimiter.Valid(s.limiter) && i + 1 < |g|
    ensures var r := Deliver(s, w, today, client, g, i, username, user, n);
      && (r.outcome == SendFailed ==> OnlyTargetedChanged(Headers(g), SendingMarker, g[i + 1], r.grid[i + 1]))
      && (r.outcome == Sent ==> OnlyTargetedChanged(Headers(g), ResultUpdates(s.engine, n, today), g[i + 1], r.grid[i + 1]))
  {
    var r := Deliver(s, w, today, client, g, i, username, user, n);
    var marked := Checkpoint(g, i, w.markerFault(i));
    if r.outcome == Sent {
      var finish := RecordSuccess(s, w, today, marked.0, i, n);
      assert marked.0[0] == g[0];
      MarkerThenResult(g, marked.0, finish.0, i, ResultUpdates(s.engine, n, today));
    }
  }

  /**
   * `process_lead(row, i + 2)` for the lead at position `i`, with
   * `sent_today == sentToday`. An exception ends the step with `Raised` and no
   * collaborator touched.
   */
  function ProcessLead(s: Settings, w: World, today: Date, client: Client, g: Grid, sentToday: int, row: Row, i: nat): (r: Step)
    requires Valid(today) && RateLimiter.Valid(s.limiter)
    ensures r.outcome == Capped <==> sentToday >= s.maxDailyMessages
    ensures r.outcome == NotDue <==> sentToday < s.maxDailyMessages && ShouldSend(s.engine, row, today) == Ok(false)
    ensures r.outcome.Raised? <==>
      (&& sentToday < s.maxDailyMessages
       && (ShouldSend(s.engine, row, today).Err? || (ShouldSend(s.engine, row, today) == Ok(true) && !UrlIsText(row))))
    ensures r.outcome == Rejected <==>
      (&& sentToday < s.maxDailyMessages && ShouldSend(s.engine, row, today) == Ok(true) && UrlIsText(row)
       && GetValidUser(client, w.profile(i)).None?)
    ensures r.outcome == Sent <==>
      Attempted(s, w, today, client, sentToday, row, i) && SendMessage(client, w.sendAccepted(i)).ok
    ensures r.outcome == SendFailed <==>
      Attempted(s, w, today, client, sentToday, row, i) && !SendMessage(client, w.sendAccepted(i)).ok
    ensures r.outcome != Skipped
    ensures !Writes(r.outcome) && r.outcome != Rejected ==> r.events == []
    ensures !Writes(r.outcome) ==> r.grid == g
    ensures SameShape(r.grid, g)
    ensures forall x :: 0 <= x < |g| && x != i + 1 ==> r.grid[x] == g[x]
  {
    if sentToday >= s.maxDailyMessages then Step(Capped, g, [])
    else match ShouldSend(s.engine, row, today)
      case Err(x) => Step(Raised(x), g, [])
      case Ok(false) => Step(NotDue, g, [])
      case Ok(true) =>
        if !UrlIsText(row) then Step(Raised(AttributeError("object has no attribute 'strip'")), g, [])
        else
          var username := ExtractUsername(row[UrlKey].s);
          match GetValidUser(client, w.profile(i))
          case None => Step(Rejected, g, [FetchProfile(i + 2, username)])
          case Some(user) => Deliver(s, w, today, client, g, i, username, user, NextMessageNumber(row).value)
  }

  /**
   * The events of `process_lead`: nothing is sent except right after the
   * lead's "sending..." write, the profile is fetched first, and a step that
   * writes to the sheet is the delivery of the next message number to the
   * username the URL names.
   */
  lemma ProcessLeadDelivers(s: Settings, w: World, today: Date, client: Client, g: Grid, sentToday: int, row: Row, i: nat)
    requires Valid(today) && RateLimiter.Valid(s.limiter)
    ensures var r := ProcessLead(s, w, today, client, g, sentToday, row, i);
      && CheckpointBeforeSend(r.events) && (|r.events| > 0 ==> r.events[0].FetchProfile?)
      && (Writes(r.outcome) ==>
            && NextMessageNumber(row).Ok?
            && r == Deliver(s, w, today, client, g, i, ExtractUsername(row[UrlKey].s), GetValidUser(client, w.profile(i)).value,
                            NextMessageNumber(row).value))
  {
  }

  /** Events whose only send is the fourth, right after the "sending..." write for its row. */
  lemma SendFourth(t: seq<Event>)
    requires |t| >= 4 && t[3].SendDm?
    requires t[2].UpdateFields? && t[2].row == t[3].row && t[2].updates == SendingMarker
    requires forall j :: 0 <= j < |t| && j != 3 ==> !t[j].SendDm?
    ensures CheckpointBeforeSend(t)
  {
  }

  /**
   * The marker write followed by the result write changes the row at most in
   * the result's columns, since the result names the marker's one column too.
   */
  lemma MarkerThenResult(g: Grid, g1: Grid, g2: Grid, i: nat, updates: Updates)
    requires i + 1 < |g| && |updates| > 0 && updates[0].0 == StatusKey
    requires SameShape(g1, g) && SameShape(g2, g) && g1[0] == g[0]
    requires OnlyTargetedChanged(Headers(g), SendingMarker, g[i + 1], g1[i + 1])
    requires OnlyTargetedChanged(Headers(g1), updates, g1[i + 1], g2[i + 1])
    ensures OnlyTargetedChanged(Headers(g), updates, g[i + 1], g2[i + 1])
  {
    assert Headers(g1) == Headers(g);
    forall j | 0 <= j < |g[i + 1]| && TargetedFrom(Headers(g), SendingMarker, 0, j)
      ensures TargetedFrom(Headers(g), updates, 0, j)
    {
      assert FirstIndex(Headers(g), updates[0].0) == Some(j);
    }
  }

  /** The most leads a run may send: the cap, or none when the cap is negative. */
  function DailyCap(s: Settings): nat {
    if s.maxDailyMessages < 0 then 0 else s.maxDailyMessages
  }

  /** Sheet row `k + 2`, lead `k`'s row, is as it was (or does not exist). */
  predicate RowKept(g: Grid, h: Grid, k: nat) {
    k + 1 < |g| ==> k + 1 < |h| && h[k + 1] == g[k + 1]
  }

  /** The loop's running state. */
  datatype Progress = Progress(grid: Grid, sentToday: nat, counters: Counters, outcomes: seq<Outcome>, events: seq<seq<Event>>)

  /**
   * What one pass of the loop body does to the run's state: one more outcome
   * and one more event list; skipped exactly when `should_skip` holds; stopped
   * by the cap exactly when not skipped and the cap is reached; a send only
   * below the cap; the counter the outcome names moves; only the lead's own
   * row may change, and only on a send attempt; the lead's send comes right
   * after its "sending..." write.
   */
  predicate Moved(s: Settings, p: Progress, r: Progress, row: Row, i: nat) {
    && |r.outcomes| == |p.outcomes| + 1 && r.outcomes == p.outcomes + [r.outcomes[|p.outcomes|]]
    && var o := r.outcomes[|p.outcomes|];
    && (o == Skipped <==> ShouldSkip(row))
    && (o == Capped <==> !ShouldSkip(row) && p.sentToday >= s.maxDailyMessages)
    && (o == Sent ==> p.sentToday < s.maxDailyMessages)
    && (!Writes(o) ==> r.grid == p.grid)
    && r.counters == Bump(p.counters, o)
    && r.sentToday == r.counters.sent
    && SameShape(r.grid, p.grid)
    && (forall x :: 0 <= x < |p.grid| && x != i + 1 ==> r.grid[x] == p.grid[x])
    && |r.events| == |p.events| + 1
    && r.events == p.events + [r.events[|p.events|]] && CheckpointBeforeSend(r.events[|p.events|])
  }

  /**
   * One pass of the loop body of `run()` on lead `i`: `should_skip`, then
   * `process_lead`, with the counters the outcome moves. A raised exception
   * is caught here and only logged.
   */
  function Visit(s: Settings, w: World, today: Date, client: Client, p: Progress, row: Row, i: nat): (r: Progress)
    requires Valid(today) && RateLimiter.Valid(s.limiter)
    requires p.sentToday == p.counters.sent && |p.events| == |p.outcomes|
    ensures Moved(s, p, r, row, i)
  {
    if ShouldSkip(row) then p.(outcomes := p.outcomes + [Skipped], events := p.events + [[]])
    else
      var step := ProcessLead(s, w, today, client, p.grid, p.sentToday, row, i);
      ProcessLeadDelivers(s, w, today, client, p.grid, p.sentToday, row, i);
      var o := step.outcome;
      var outcomes := p.outcomes + [o];
      assert outcomes[..|p.outcomes|] == p.outcomes;
      if o == Capped then p.(outcomes := outcomes, events := p.events + [[]])
      else
        var counters := Bump(p.counters, o);
        Progress(step.grid, counters.sent, counters, outcomes, p.events + [step.events])
  }

  /** The rows a visit may have written: only the visited lead's, and only on a send attempt. */
  lemma KeepRows(g: Grid, grid: Grid, grid': Grid, outcomes: seq<Outcome>, o: Outcome)
    requires forall k :: 0 <= k < |outcomes| && !Writes(outcomes[k]) ==> RowKept(g, grid, k)
    requires forall k :: |outcomes| <= k < |g| ==> RowKept(g, grid, k)
    requires |grid'| == |grid| && forall x :: 0 <= x < |grid| && x != |outcomes| + 1 ==> grid'[x] == grid[x]
    requires !Writes(o) ==> grid' == grid
    ensures forall k :: 0 <= k < |outcomes + [o]| && !Writes((outcomes + [o])[k]) ==> RowKept(g, grid', k)
    ensures forall k :: |outcomes + [o]| <= k < |g| ==> RowKept(g, grid', k)
  {
    var i := |outcomes|;
    forall k | 0 <= k < i + 1 && !Writes((outcomes + [o])[k])
      ensures RowKept(g, grid', k)
    {
      if k < i {
        assert (outcomes + [o])[k] == outcomes[k];
        assert RowKept(g, grid, k);
      } else {
        assert RowKept(g, grid, i);
      }
    }
    forall k | i + 1 <= k < |g|
      ensures RowKept(g, grid', k)
    {
      assert RowKept(g, grid, k);
    }
  }

  /** Extending the outcome log keeps "skipped exactly when `should_skip` holds". */
  lemma KeepSkips(leads: seq<Row>, outcomes: seq<Outcome>, o: Outcome)
    requires |outcomes| < |leads|
    requires forall k :: 0 <= k < |outcomes| ==> (outcomes[k] == Skipped <==> ShouldSkip(leads[k]))
    requires o == Skipped <==> ShouldSkip(leads[|outcomes|])
    ensures forall k :: 0 <= k < |outcomes + [o]| ==> ((outcomes + [o])[k] == Skipped <==> ShouldSkip(leads[k]))
  {
    forall k | 0 <= k < |outcomes|
      ensures (outcomes + [o])[k] == outcomes[k]
    {
    }
  }

  /** Appending a lead's events keeps every lead's checkpoint before its send. */
  lemma KeepCheckpoints(events: seq<seq<Event>>, e: seq<Event>)
    requires forall k :: 0 <= k < |events| ==> CheckpointBeforeSend(events[k])
    requires CheckpointBeforeSend(e)
    ensures forall k :: 0 <= k < |events + [e]| ==> CheckpointBeforeSend((events + [e])[k])
  {
    forall k | 0 <= k < |events + [e]|
      ensures CheckpointBeforeSend((events + [e])[k])
    {
      if k < |events| {
        assert (events + [e])[k] == events[k];
      }
    }
  }

  /** The run's counters as a tally of the outcome log. */
  function Tally(os: seq<Outcome>): Counters {
    var m := multiset(os);
    Counters(m[Sent], m[NotDue], m[Rejected] + m[SendFailed])
  }

  /** Logging one more outcome moves the tally as `Visit` moves the counters. */
  lemma KeepTally(os: seq<Outcome>, o: Outcome)
    ensures Tally(os + [o]) == Bump(Tally(os), o)
  {
    assert multiset(os + [o]) == multiset(os) + multiset{o};
  }

  /** The sheet keeps its shape and its header row. */
  predicate ShapeKept(g: Grid, p: Progress) {
    SameShape(p.grid, g) && (|g| > 0 ==> p.grid[0] == g[0])
  }

  /** `sent_today` counts the sends and never passes the cap, and the counters tally the outcomes. */
  predicate Counted(s: Settings, p: Progress) {
    p.sentToday == p.counters.sent <= DailyCap(s) && p.counters == Tally(p.outcomes)
  }

  /** A visited lead is skipped exactly when `should_skip` holds for it. */
  predicate SkipsMatch(leads: seq<Row>, p: Progress) {
    |p.outcomes| <= |leads| && forall k :: 0 <= k < |p.outcomes| ==> (p.outcomes[k] == Skipped <==> ShouldSkip(leads[k]))
  }

  /** The rows of leads that were not sent to, or not reached, are untouched. */
  predicate RowsKept(g: Grid, p: Progress) {
    && (forall k :: 0 <= k < |p.outcomes| && !Writes(p.outcomes[k]) ==> RowKept(g, p.grid, k))
    && (forall k :: |p.outcomes| <= k < |g| ==> RowKept(g, p.grid, k))
  }

  /** One event list per visited lead, each with its send right after its "sending..." write. */
  predicate Checkpoints(p: Progress) {
    |p.events| == |p.outcomes| && forall k :: 0 <= k < |p.events| ==> CheckpointBeforeSend(p.events[k])
  }

  /**
   * The run visits every lead unless it stops at a lead met with the cap
   * reached, which is then the last one visited.
   */
  predicate StopsOnlyAtCap(s: Settings, leads: seq<Row>, p: Progress) {
    && (|p.outcomes| < |leads| ==> |p.outcomes| > 0 && p.outcomes[|p.outcomes| - 1] == Capped)
    && (forall k :: 0 <= k < |p.outcomes| && p.outcomes[k] == Capped ==> k == |p.outcomes| - 1)
    && (Capped in p.outcomes ==> p.sentToday >= s.maxDailyMessages)
  }

  /**
   * A visited lead is capped exactly when it is not skipped and the sends
   * before it have reached the cap: the first such lead ends the run.
   */
  predicate CapHonoured(s: Settings, leads: seq<Row>, p: Progress) {
    |p.outcomes| <= |leads| &&
    forall k :: 0 <= k < |p.outcomes| ==>
      (p.outcomes[k] == Capped <==> !ShouldSkip(leads[k]) && Tally(p.outcomes[..k]).sent >= s.maxDailyMessages)
  }

  /** What a run guarantees about the leads it visited and the sheet `g` it started from. */
  predicate Finished(s: Settings, g: Grid, leads: seq<Row>, p: Progress) {
    && ShapeKept(g, p) && Counted(s, p) && SkipsMatch(leads, p) && RowsKept(g, p) && Checkpoints(p)
    && StopsOnlyAtCap(s, leads, p) && CapHonoured(s, leads, p)
  }

  /** The loop invariant of `run()` after `i` leads, none of them met with the cap reached. */
  predicate Looping(s: Settings, g: Grid, leads: seq<Row>, i: nat, p: Progress) {
    && i <= |leads| && |p.outcomes| == i && Capped !in p.outcomes
    && ShapeKept(g, p) && Counted(s, p) && SkipsMatch(leads, p) && RowsKept(g, p) && Checkpoints(p)
    && CapHonoured(s, leads, p)
  }

  /** A visit keeps the cap rule: the new outcome is capped exactly when the sends so far reach the cap. */
  lemma KeepCap(s: Settings, leads: seq<Row>, p: Progress, next: Progress, o: Outcome)
    requires CapHonoured(s, leads, p) && |p.outcomes| < |leads| && next.outcomes == p.outcomes + [o]
    requires o == Capped <==> !ShouldSkip(leads[|p.outcomes|]) && Tally(p.outcomes).sent >= s.maxDailyMessages
    ensures CapHonoured(s, leads, next)
  {
    assert next.outcomes[..|p.outcomes|] == p.outcomes;
    forall k | 0 <= k < |p.outcomes|
      ensures next.outcomes[k] == p.outcomes[k] && next.outcomes[..k] == p.outcomes[..k]
    {
    }
  }

  /** A visit keeps the shape and the header row. */
  lemma VisitKeepsShape(g: Grid, p: Progress, next: Progress, i: nat)
    requires ShapeKept(g, p) && SameShape(next.grid, p.grid)
    requires forall x :: 0 <= x < |p.grid| && x != i + 1 ==> next.grid[x] == p.grid[x]
    ensures ShapeKept(g, next)
  {
    if |g| > 0 {
      assert next.grid[0] == p.grid[0];
    }
  }

  /** A visit keeps the count of sends under the cap and the tally. */
  lemma VisitKeepsCount(s: Settings, p: Progress, next: Progress, o: Outcome)
    requires Counted(s, p) && next.outcomes == p.outcomes + [o] && next.sentToday == next.counters.sent
    requires o == Sent ==> p.sentToday < s.maxDailyMessages
    requires next.counters == Bump(p.counters, o)
    ensures Counted(s, next)
  {
    KeepTally(p.outcomes, o);
  }

  /** Only a lead met with the cap reached ends the run, as the last lead visited. */
  lemma VisitStops(s: Settings, leads: seq<Row>, p: Progress, next: Progress, o: Outcome)
    requires Capped !in p.outcomes && |p.outcomes| < |leads| && next.outcomes == p.outcomes + [o]
    requires o == Capped ==> next.sentToday >= s.maxDailyMessages
    ensures o != Capped ==> Capped !in next.outcomes
    ensures o == Capped ==> StopsOnlyAtCap(s, leads, next)
  {
    assert forall k :: 0 <= k < |p.outcomes| ==> next.outcomes[k] == p.outcomes[k];
  }

  /** One visit keeps the loop invariant, or, when the cap stops the run, leaves it finished. */
  lemma VisitStep(s: Settings, g: Grid, leads: seq<Row>, i: nat, p: Progress, next: Progress)
    requires Looping(s, g, leads, i, p) && i < |leads| && Moved(s, p, next, leads[i], i)
    ensures next.outcomes[i] != Capped ==> Looping(s, g, leads, i + 1, next)
    ensures next.outcomes[i] == Capped ==> Finished(s, g, leads, next)
  {
    var o := next.outcomes[i];
    assert next.outcomes == p.outcomes + [o];
    VisitKeepsShape(g, p, next, i);
    VisitKeepsCount(s, p, next, o);
    KeepRows(g, p.grid, next.grid, p.outcomes, o);
    assert RowsKept(g, next);
    KeepSkips(leads, p.outcomes, o);
    assert SkipsMatch(leads, next);
    KeepCheckpoints(p.events, next.events[i]);
    assert Checkpoints(next);
    VisitStops(s, leads, p, next, o);
    KeepCap(s, leads, p, next, o);
  }

  /** The invariant after the last lead is the finished state. */
  lemma LoopingDone(s: Settings, g: Grid, leads: seq<Row>, p: Progress)
    requires Looping(s, g, leads, |leads|, p)
    ensures Finished(s, g, leads, p)
  {
  }

  /** The progress after visiting the first `k` leads one after another, from a fresh start. */
  function Replay(s: Settings, w: World, today: Date, client: Client, g: Grid, leads: seq<Row>, k: nat): (p: Progress)
    requires Valid(today) && RateLimiter.Valid(s.limiter) && k <= |leads|
    ensures p.sentToday == p.counters.sent && |p.events| == |p.outcomes| == k
  {
    if k == 0 then Progress(g, 0, Counters(0, 0, 0), [], [])
    else Visit(s, w, today, client, Replay(s, w, today, client, g, leads, k - 1), leads[k - 1], k - 1)
  }

  /**
   * The `for` loop of `run()` over the leads read at its start: lead `k` is
   * sheet row `k + 2`, and the first lead met with the cap reached ends it.
   * Each lead visited gets the step `Visit` takes on the progress before it.
   */
  method VisitAll(s: Settings, w: World, today: Date, client: Client, g: Grid, leads: seq<Row>) returns (p: Progress)
    requires Valid(today) && RateLimiter.Valid(s.limiter)
    ensures Finished(s, g, leads, p)
    ensures p == Replay(s, w, today, client, g, leads, |p.outcomes|)
  {
    p := Progress(g, 0, Counters(0, 0, 0), [], []);
    var i := 0;
    while i < |leads|
      invariant Looping(s, g, leads, i, p)
      invariant p == Replay(s, w, today, client, g, leads, i)
    {
      var next := Visit(s, w, today, client, p, leads[i], i);
      VisitStep(s, g, leads, i, p, next);
      if next.outcomes[i] == Capped {
        return next;
      }
      p := next;
      i := i + 1;
    }
    LoopingDone(s, g, leads, p);
  }

  /** What a run leaves behind: whether it logged in, the leads it read, and its progress through them. */
  datatype RunResult = RunResult(loggedIn: bool, leads: seq<Row>, progress: Progress)

  /**
   * `run()`: log in, read the leads once, and take them in order. A failed
   * login ends the run before the sheet is read or written.
   */
  method Run(s: Settings, w: World, today: Date, g: Grid) returns (r: RunResult)
    requires Valid(today) && RateLimiter.Valid(s.limiter)
    ensures !w.loginAccepted ==> r == RunResult(false, [], Progress(g, 0, Counters(0, 0, 0), [], []))
    ensures w.loginAccepted ==> r.loggedIn && r.leads == GetAllLeads(g, w.leadsReadable)
    ensures Finished(s, g, r.leads, r.progress)
    ensures w.loginAccepted ==>
      r.progress == Replay(s, w, today, Login(NewClient(s.sessionId, s.testMode), true).0, g, r.leads, |r.progress.outcomes|)
  {
    var login := Login(NewClient(s.sessionId, s.testMode), w.loginAccepted);
    if !login.1 {
      r := RunResult(false, [], Progress(g, 0, Counters(0, 0, 0), [], []));
      assert Finished(s, g, r.leads, r.progress);
      return;
    }
    var leads := GetAllLeads(g, w.leadsReadable);
    var p := VisitAll(s, w, today, login.0, g, leads);
    r := RunResult(true, leads, p);
  }
}

=== FILE: rate_limiter.dfy ===
/** The randomised pause between sends. */
module RateLimiter {
  import opened Wrappers

  datatype Limiter = Limiter(minSeconds: int, maxSeconds: int)

  /** The limiters construction can produce. */
  predicate Valid(l: Limiter) {
    0 <= l.minSeconds <= l.maxSeconds
  }

  const NegativeMessage := "Seconds must be non-negative"
  const OrderMessage := "min_seconds cannot be greater than max_seconds"

  /** `RateLimiter(min_seconds, max_seconds)`: validates both bounds, then keeps them as given. */
  function New(minSeconds: int, maxSeconds: int): (r: Result<Limiter>)
    ensures r.Ok? <==> 0 <= minSeconds <= maxSeconds
    ensures r.Ok? ==> r.value == Limiter(minSeconds, maxSeconds) && Valid(r.value)
    ensures minSeconds < 0 || maxSeconds < 0 ==> r == Err(ValueError(NegativeMessage))
    ensures 0 <= maxSeconds < minSeconds ==> r == Err(ValueError(OrderMessage))
  {
    if minSeconds < 0 || maxSeconds < 0 then Err(ValueError(NegativeMessage))
    else if minSeconds > maxSeconds then Err(ValueError(OrderMessage))
    else Ok(Limiter(minSeconds, maxSeconds))
  }

  /**
   * The number of seconds `wait()` sleeps: `random.randint(min, max)`, with the
   * random draw supplied as `draw`. The limiter itself is a value and is left
   * as it was.
   */
  function Delay(l: Limiter, draw: nat): (seconds: int)
    requires Valid(l)
    ensures l.minSeconds <= seconds <= l.maxSeconds
  {
    l.minSeconds + draw % (l.maxSeconds - l.minSeconds + 1)
  }

  /** Every whole number of seconds in the inclusive range is a possible delay. */
  lemma EveryDelayPossible(l: Limiter, seconds: int)
    requires Valid(l) && l.minSeconds <= seconds <= l.maxSeconds
    ensures exists draw: nat :: Delay(l, draw) == seconds
  {
    var draw: nat := seconds - l.minSeconds;
    assert Delay(l, draw) == seconds;
  }

  /** The configured 45 to 120 seconds is accepted; 10 to 5 is refused. */
  lemma ConfiguredBounds()
    ensures New(45, 120) == Ok(Limiter(45, 120))
    ensures New(10, 5) == Err(ValueError(OrderMessage))
  {
  }
}

=== FILE: rows.dfy ===
/** Lead rows as the sheet client hands them over: header name to cell value. */
module Rows {
  import opened Wrappers
  import opened Strings

  /** A cell as the sheet client returns it: text, or a number it recognised. */
  datatype Cell = Text(s: string) | Number(n: int)

  /** One record: header name to cell. */
  type Row = map<string, Cell>

  /**
   * Column headers. The drip engine reads the three drip fields under these
   * literal names and the orchestrator writes them under the configured column
   * names, which are the same three strings, so reads and writes meet.
   */
  const StatusKey := "Status"
  const MessageNumberKey := "Message Number"
  const LastMessageDateKey := "Last Message Date"
  const UrlKey := "INSTAGRAM URL"

  /** `row.get(key)`. */
  function Get(row: Row, key: string): Option<Cell> {
    if key in row then Some(row[key]) else None
  }

  /** Python truthiness of a cell: the empty string and zero are false. */
  predicate Truthy(c: Cell) {
    match c
    case Text(s) => s != ""
    case Number(n) => n != 0
  }

  /** `not row.get(key)`: the key is missing or its value is falsy. */
  predicate Blank(row: Row, key: string) {
    key !in row || !Truthy(row[key])
  }

  /** `str(value)`. */
  function Str(c: Cell): string {
    match c
    case Text(s) => s
    case Number(n) => IntDecimal(n)
  }

  /** `str(row.get("Status", "")).lower()`. */
  function Status(row: Row): string {
    if StatusKey in row then Lower(Str(row[StatusKey])) else ""
  }

  /** A number renders with a leading digit or sign, so it never reads as a word status. */
  lemma NumberStatusIsNotAWord(row: Row, word: string)
    requires StatusKey in row && row[StatusKey].Number?
    requires |word| > 0 && 'a' <= word[0] <= 'z'
    ensures Status(row) != word
  {
    var r := IntDecimal(row[StatusKey].n);
    assert Status(row)[0] == LowerChar(r[0]);
  }
}

=== FILE: sheets_service.dfy ===
/**
 * The worksheet behind the leads: a grid of cells whose first row holds the
 * headers, read as records and written cell by cell under header names.
 */
module SheetsService {
  import opened Wrappers
  import opened Strings
  import opened Rows

  /** Every row as wide as the header row: the worksheet is a rectangle, and blank cells read as "". */
  predicate Rectangular(g: seq<seq<Cell>>) {
    forall r :: 0 <= r < |g| ==> |g[r]| == |g[0]|
  }

  /** Sheet row `r` (1-based) is `g[r - 1]`; row 1 holds the headers. */
  type Grid = g: seq<seq<Cell>> | Rectangular(g) witness []

  /** Two grids with the same number of rows and the same width in every row. */
  predicate SameShape(g: Grid, h: Grid) {
    |g| == |h| && forall r :: 0 <= r < |g| ==> |g[r]| == |h[r]|
  }

  /** `row_values(1)`: the header names, as text. */
  function Headers(g: Grid): (hs: seq<string>)
    ensures |g| > 0 ==> |hs| == |g[0]|
  {
    if |g| == 0 then [] else seq(|g[0]|, j requires 0 <= j < |g[0]| => Str(g[0][j]))
  }

  /** `headers.index(key)`: the first position holding `key`. */
  function FirstIndex(hs: seq<string>, key: string): (r: Option<nat>)
    ensures r.None? <==> key !in hs
    ensures r.Some? ==> r.value < |hs| && hs[r.value] == key && key !in hs[..r.value]
    decreases |hs|
  {
    if |hs| == 0 then None
    else if hs[0] == key then Some(0)
    else match FirstIndex(hs[1..], key)
      case None => None
      case Some(j) =>
        assert hs[..j + 1] == [hs[0]] + hs[1..][..j];
        Some(j + 1)
  }

  /** The last position holding `key`: the one `dict(zip(headers, row))` keeps. */
  function LastIndex(hs: seq<string>, key: string): (r: Option<nat>)
    ensures r.None? <==> key !in hs
    ensures r.Some? ==> r.value < |hs| && hs[r.value] == key && key !in hs[r.value + 1..]
    decreases |hs|
  {
    if |hs| == 0 then None
    else if hs[|hs| - 1] == key then Some(|hs| - 1)
    else
      var r := LastIndex(hs[..|hs| - 1], key);
      if r.Some? then
        assert hs[r.value + 1..] == hs[..|hs| - 1][r.value + 1..] + [hs[|hs| - 1]];
        r
      else r
  }

  /** The header names of a row, each appearing once. */
  predicate UniqueHeaders(g: Grid) {
    var hs := Headers(g);
    forall i, j :: 0 <= i < j < |hs| ==> hs[i] != hs[j]
  }

  /** A dict of field updates: a key appears at most once. */
  predicate DistinctKeys(updates: seq<(string, Cell)>) {
    forall i, j :: 0 <= i < j < |updates| ==> updates[i].0 != updates[j].0
  }

  /** The update map `update_lead_fields` receives, in insertion order. */
  type Updates = u: seq<(string, Cell)> | DistinctKeys(u) witness []

  /** A cell `update_cell(row, col, …)` can reach: a row of the sheet, a column under the header row; anything else is an API error. */
  predicate InRange(g: Grid, row: int, col: int) {
    1 <= row <= |g| && 1 <= col <= |g[0]|
  }

  function SetCell(g: Grid, row: int, col: int, v: Cell): (g': Grid)
    requires InRange(g, row, col)
    ensures SameShape(g', g)
    ensures forall r :: 0 <= r < |g| && r != row - 1 ==> g'[r] == g[r]
    ensures g'[row - 1] == g[row - 1][col - 1 := v]
  {
    g[row - 1 := g[row - 1][col - 1 := v]]
  }

  /**
   * Where the collaborator fails: reading the header row, or the
   * `update_cell` call for the update entry numbered `entry`.
   */
  datatype Fault = NoFault | HeaderReadFails | WriteFails(entry: nat)

  /** The write for update entry `i` goes through: its key is not a header, or its cell exists and the call does not fail. */
  predicate WriteOk(g: Grid, row: int, hs: seq<string>, updates: Updates, fault: Fault, i: nat)
    requires i < |updates|
  {
    var col := FirstIndex(hs, updates[i].0);
    col.None? || (InRange(g, row, col.value + 1) && fault != WriteFails(i))
  }

  /** The writes for entries `k` through `i` all go through. */
  predicate OkThrough(g: Grid, row: int, hs: seq<string>, updates: Updates, fault: Fault, k: nat, i: nat)
    requires i < |updates|
  {
    forall i2 :: k <= i2 <= i ==> WriteOk(g, row, hs, updates, fault, i2)
  }

  /** The update entries from `k` on whose key names the header at position `j`. */
  predicate TargetedFrom(hs: seq<string>, updates: Updates, k: nat, j: nat) {
    exists i :: k <= i < |updates| && FirstIndex(hs, updates[i].0) == Some(j)
  }

  /** One cell written by `WriteCells`: it changes no later entry's outcome, and no later entry targets its column. */
  lemma CellWritten(g: Grid, row: int, hs: seq<string>, updates: Updates, fault: Fault, k: nat, c: nat)
    requires k < |updates| && FirstIndex(hs, updates[k].0) == Some(c)
    requires InRange(g, row, c + 1) && fault != WriteFails(k)
    ensures var g1 := SetCell(g, row, c + 1, updates[k].1);
      && WriteOk(g, row, hs, updates, fault, k)
      && TargetedFrom(hs, updates, k, c)
      && !TargetedFrom(hs, updates, k + 1, c)
      && (forall i :: k <= i < |updates| ==>
            WriteOk(g1, row, hs, updates, fault, i) == WriteOk(g, row, hs, updates, fault, i))
      && (forall i :: k < i < |updates| && OkThrough(g, row, hs, updates, fault, k, i) ==>
            OkThrough(g1, row, hs, updates, fault, k + 1, i))
  {
    var g1 := SetCell(g, row, c + 1, updates[k].1);
    assert forall i :: k <= i < |updates| ==>
      WriteOk(g1, row, hs, updates, fault, i) == WriteOk(g, row, hs, updates, fault, i);
    forall i | k + 1 <= i < |updates|
      ensures FirstIndex(hs, updates[i].0) != Some(c)
    {
      assert updates[i].0 != updates[k].0;
    }
  }

  /**
   * The loop `for r, c, v in update_cells: update_cell(r, c, v)` from entry
   * `k` on: keys missing from the headers are skipped, and the first call
   * that raises ends the loop with the earlier cells already written.
   */
  function WriteCells(g: Grid, row: int, hs: seq<string>, updates: Updates, fault: Fault, k: nat): (r: (Grid, bool))
    requires k <= |updates|
    ensures SameShape(r.0, g)
    ensures forall x :: 0 <= x < |g| && x != row - 1 ==> r.0[x] == g[x]
    ensures 1 <= row <= |g| ==>
      forall j :: 0 <= j < |g[row - 1]| && !TargetedFrom(hs, updates, k, j) ==> r.0[row - 1][j] == g[row - 1][j]
    ensures r.1 <==> forall i :: k <= i < |updates| ==> WriteOk(g, row, hs, updates, fault, i)
    decreases |updates| - k
  {
    if k == |updates| then (g, true)
    else
      var col := FirstIndex(hs, updates[k].0);
      assert forall j :: TargetedFrom(hs, updates, k + 1, j) ==> TargetedFrom(hs, updates, k, j);
      if col.None? then
        assert WriteOk(g, row, hs, updates, fault, k);
        assert forall i :: k < i < |updates| && OkThrough(g, row, hs, updates, fault, k, i) ==>
          OkThrough(g, row, hs, updates, fault, k + 1, i);
        WriteCells(g, row, hs, updates, fault, k + 1)
      else if !InRange(g, row, col.value + 1) || fault == WriteFails(k) then
        assert !WriteOk(g, row, hs, updates, fault, k);
        assert forall i :: k <= i < |updates| ==> !OkThrough(g, row, hs, updates, fault, k, i);
        (g, false)
      else
        var c := col.value;
        var g1 := SetCell(g, row, c + 1, updates[k].1);
        CellWritten(g, row, hs, updates, fault, k, c);
        var r := WriteCells(g1, row, hs, updates, fault, k + 1);
        var before := g[row - 1];
        var after := r.0[row - 1];
        assert forall j :: 0 <= j < |before| && !TargetedFrom(hs, updates, k, j) ==> after[j] == before[j];
        r
  }

  /** Every entry from `k` on whose write and all earlier ones went through leaves its value in its column. */
  lemma {:induction false} WriteCellsLands(g: Grid, row: int, hs: seq<string>, updates: Updates, fault: Fault, k: nat)
    requires k <= |updates|
    ensures var r := WriteCells(g, row, hs, updates, fault, k);
      forall i :: k <= i < |updates| && updates[i].0 in hs
                  && WriteOk(g, row, hs, updates, fault, i) && OkThrough(g, row, hs, updates, fault, k, i)
        ==> r.0[row - 1][FirstIndex(hs, updates[i].0).value] == updates[i].1
    decreases |updates| - k
  {
    if k < |updates| {
      var col := FirstIndex(hs, updates[k].0);
      if col.None? {
        WriteCellsLands(g, row, hs, updates, fault, k + 1);
        assert forall i :: k < i < |updates| && OkThrough(g, row, hs, updates, fault, k, i) ==>
          OkThrough(g, row, hs, updates, fault, k + 1, i);
      } else if InRange(g, row, col.value + 1) && fault != WriteFails(k) {
        var c := col.value;
        var g1 := SetCell(g, row, c + 1, updates[k].1);
        CellWritten(g, row, hs, updates, fault, k, c);
        WriteCellsLands(g1, row, hs, updates, fault, k + 1);
        var r := WriteCells(g1, row, hs, updates, fault, k + 1);
        assert r == WriteCells(g, row, hs, updates, fault, k);
        forall i | k <= i < |updates| && updates[i].0 in hs
                   && WriteOk(g, row, hs, updates, fault, i) && OkThrough(g, row, hs, updates, fault, k, i)
          ensures r.0[row - 1][FirstIndex(hs, updates[i].0).value] == updates[i].1
        {
          if i == k {
            assert r.0[row - 1][c] == updates[k].1;
          } else {
            assert OkThrough(g1, row, hs, updates, fault, k + 1, i);
          }
        }
      } else {
        assert !WriteOk(g, row, hs, updates, fault, k);
      }
    }
  }

  /**
   * `update_lead_fields(row, updates)`: each key found among the headers is
   * written to the column of its first occurrence, in row `row` only; other
   * keys are ignored. Any exception makes it return false.
   */
  function UpdateLeadFields(g: Grid, row: int, updates: Updates, fault: Fault): (r: (Grid, bool))
    ensures SameShape(r.0, g)
    ensures forall x :: 0 <= x < |g| && x != row - 1 ==> r.0[x] == g[x]
    ensures 1 <= row <= |g| ==>
      forall j :: 0 <= j < |g[row - 1]| && !TargetedFrom(Headers(g), updates, 0, j) ==> r.0[row - 1][j] == g[row - 1][j]
    ensures fault == HeaderReadFails ==> r == (g, false)
    ensures r.1 <==> fault != HeaderReadFails
                     && forall i :: 0 <= i < |updates| ==> WriteOk(g, row, Headers(g), updates, fault, i)
    ensures r.1 ==> forall i :: 0 <= i < |updates| && updates[i].0 in Headers(g)
                      ==> 1 <= row <= |g| && FirstIndex(Headers(g), updates[i].0).value < |r.0[row - 1]|
                          && r.0[row - 1][FirstIndex(Headers(g), updates[i].0).value] == updates[i].1
  {
    if fault == HeaderReadFails then (g, false)
    else
      var hs := Headers(g);
      var r := WriteCells(g, row, hs, updates, fault, 0);
      WriteCellsLands(g, row, hs, updates, fault, 0);
      assert r.1 ==> forall i :: 0 <= i < |updates| && updates[i].0 in hs ==>
        1 <= row <= |g| && FirstIndex(hs, updates[i].0).value < |r.0[row - 1]|
        && r.0[row - 1][FirstIndex(hs, updates[i].0).value] == updates[i].1
      by {
        if r.1 {
          forall i | 0 <= i < |updates| && updates[i].0 in hs
            ensures 1 <= row <= |g| && FirstIndex(hs, updates[i].0).value < |r.0[row - 1]|
            ensures r.0[row - 1][FirstIndex(hs, updates[i].0).value] == updates[i].1
          {
            assert WriteOk(g, row, hs, updates, fault, i);
            assert OkThrough(g, row, hs, updates, fault, 0, i);
          }
        }
      }
      r
  }

  /** An update map none of whose keys is a header changes nothing and succeeds unless the header read fails. */
  lemma UnknownKeysChangeNothing(g: Grid, row: int, updates: Updates, fault: Fault)
    requires forall i :: 0 <= i < |updates| ==> updates[i].0 !in Headers(g)
    requires fault != HeaderReadFails
    ensures UpdateLeadFields(g, row, updates, fault) == (g, true)
  {
    var r := UpdateLeadFields(g, row, updates, fault);
    assert forall i :: 0 <= i < |updates| ==> FirstIndex(Headers(g), updates[i].0).None?;
    assert r.1;
    if 1 <= row <= |g| {
      var after := r.0[row - 1];
      var before := g[row - 1];
      assert |after| == |before|;
      forall j | 0 <= j < |after|
        ensures after[j] == before[j]
      {
        assert !TargetedFrom(Headers(g), updates, 0, j);
      }
      assert after == before;
    }
    assert r.0 == g;
  }

  /** A write to a lead's row with no fault goes through: every header names a column of the sheet. */
  lemma LeadRowWriteSucceeds(g: Grid, i: nat, updates: Updates)
    requires i + 1 < |g|
    ensures UpdateLeadFields(g, i + 2, updates, NoFault).1
  {
    assert forall k :: 0 <= k < |updates| && FirstIndex(Headers(g), updates[k].0).Some? ==>
      FirstIndex(Headers(g), updates[k].0).value < |g[0]|;
  }

  /** The value an update map gives `key`, if it names it. */
  function Lookup(updates: seq<(string, Cell)>, key: string): (r: Option<Cell>)
    ensures r.None? <==> forall k :: 0 <= k < |updates| ==> updates[k].0 != key
    ensures r.Some? ==> exists k :: 0 <= k < |updates| && updates[k] == (key, r.value)
    decreases |updates|
  {
    if |updates| == 0 then None
    else if updates[0].0 == key then Some(updates[0].1)
    else
      var r := Lookup(updates[1..], key);
      assert forall k :: 1 <= k < |updates| ==> updates[k] == updates[1..][k - 1];
      r
  }

  /** A record with the fields an update map names replaced and every other field kept. */
  function Overlay(rec: Row, updates: seq<(string, Cell)>): (r: Row)
    ensures r.Keys == rec.Keys
  {
    map h | h in rec :: if Lookup(updates, h).Some? then Lookup(updates, h).value else rec[h]
  }

  /** A blank for cells past the end of a short row, as the client pads rows. */
  function CellOrBlank(cells: seq<Cell>, j: nat): Cell {
    if j < |cells| then cells[j] else Text("")
  }

  /** `dict(zip(headers, row))`: a repeated header takes its value from its last column. */
  function RecordOf(hs: seq<string>, cells: seq<Cell>): (row: Row)
    ensures row.Keys == set h | h in hs
  {
    map h | h in hs :: CellOrBlank(cells, LastIndex(hs, h).value)
  }

  /** A header that does not occur again later reads the cell in its own column. */
  lemma RecordOfColumn(hs: seq<string>, cells: seq<Cell>, j: nat)
    requires j < |hs| && hs[j] !in hs[j + 1..]
    ensures hs[j] in RecordOf(hs, cells)
    ensures RecordOf(hs, cells)[hs[j]] == CellOrBlank(cells, j)
  {
    assert LastIndex(hs, hs[j]) == Some(j);
  }

  /** `get_all_records()`: one record per row below the headers. */
  function Records(g: Grid): (leads: seq<Row>)
    ensures |leads| == if |g| == 0 then 0 else |g| - 1
    ensures forall k :: 0 <= k < |leads| ==> leads[k] == RecordOf(Headers(g), g[k + 1])
  {
    if |g| == 0 then [] else seq(|g| - 1, k requires 0 <= k < |g| - 1 => RecordOf(Headers(g), g[k + 1]))
  }

  /** `get_all_leads()`: the records, or an empty list when reading the sheet fails. */
  function GetAllLeads(g: Grid, readable: bool): (leads: seq<Row>)
    ensures !readable ==> leads == []
    ensures readable ==> leads == Records(g)
  {
    if readable then Records(g) else []
  }

  /** Lead `k` of the records sits in sheet row `k + 2`, and a unique header reads that row's cell. */
  lemma RecordReadsRow(g: Grid, k: nat, j: nat)
    requires |g| > 0 && k + 1 < |g| && UniqueHeaders(g) && j < |Headers(g)|
    ensures Headers(g)[j] in Records(g)[k]
    ensures Records(g)[k][Headers(g)[j]] == CellOrBlank(g[k + 1], j)
  {
    var hs := Headers(g);
    assert hs[j] !in hs[j + 1..];
    RecordOfColumn(hs, g[k + 1], j);
  }

  /** Some cell of the row shows `text`. */
  predicate RowShows(cells: seq<Cell>, text: string) {
    exists j :: 0 <= j < |cells| && Str(cells[j]) == text
  }

  /** The first sheet row, from `from` on, with a cell showing `text`; -1 when none. */
  function FirstRowShowing(g: Grid, text: string, from: nat): (r: int)
    ensures r == -1 || (from + 1 <= r <= |g| && RowShows(g[r - 1], text))
    ensures r == -1 ==> forall x :: from <= x < |g| ==> !RowShows(g[x], text)
    ensures r != -1 ==> forall x :: from <= x < r - 1 ==> !RowShows(g[x], text)
    decreases |g| - from
  {
    if from >= |g| then -1
    else if RowShows(g[from], text) then from + 1
    else FirstRowShowing(g, text, from + 1)
  }

  /**
   * `find_row_by_username(username)`: the row of the first cell, scanning row
   * by row, that shows the username; -1 when there is none or the search fails.
   */
  function FindRowByUsername(g: Grid, username: string, readable: bool): (r: int)
    ensures !readable ==> r == -1
    ensures r != -1 ==> 1 <= r <= |g| && RowShows(g[r - 1], username)
                        && forall x :: 0 <= x < r - 1 ==> !RowShows(g[x], username)
    ensures readable && r == -1 ==> forall x :: 0 <= x < |g| ==> !RowShows(g[x], username)
  {
    if readable then FirstRowShowing(g, username, 0) else -1
  }

  /** One field of a re-read row after a write that went through. */
  lemma ReadBackField(g: Grid, i: nat, updates: Updates, fault: Fault, g2: Grid, j: nat)
    requires i + 1 < |g| && UniqueHeaders(g) && j < |g[0]|
    requires UpdateLeadFields(g, i + 2, updates, fault) == (g2, true)
    ensures Headers(g2) == Headers(g)
    ensures Records(g2)[i][Headers(g)[j]] == Overlay(Records(g)[i], updates)[Headers(g)[j]]
  {
    var hs := Headers(g);
    assert g2[0] == g[0];
    RecordReadsRow(g, i, j);
    RecordReadsRow(g2, i, j);
    assert FirstIndex(hs, hs[j]) == Some(j);
    var v := Lookup(updates, hs[j]);
    if v.Some? {
      var k :| 0 <= k < |updates| && updates[k] == (hs[j], v.value);
      assert g2[i + 1][j] == updates[k].1;
    } else {
      assert !TargetedFrom(hs, updates, 0, j);
    }
  }

  /**
   * Re-reading a row after a write that went through: each header field the
   * update map names holds its new value, and every other field is as before.
   */
  lemma ReadBack(g: Grid, i: nat, updates: Updates, fault: Fault)
    requires i + 1 < |g| && UniqueHeaders(g)
    requires UpdateLeadFields(g, i + 2, updates, fault).1
    ensures Records(UpdateLeadFields(g, i + 2, updates, fault).0)[i] == Overlay(Records(g)[i], updates)
  {
    var g2 := UpdateLeadFields(g, i + 2, updates, fault).0;
    var hs := Headers(g);
    var after := Records(g2)[i];
    var expected := Overlay(Records(g)[i], updates);
    assert g2[0] == g[0];
    forall h | h in after
      ensures h in expected && after[h] == expected[h]
    {
      var j := FirstIndex(hs, h).value;
      ReadBackField(g, i, updates, fault, g2, j);
    }
    SameRecord(after, expected);
  }

  /** Two records with the same fields holding the same values are the same record. */
  lemma SameRecord(a: Row, b: Row)
    requires a.Keys == b.Keys && forall h :: h in a ==> a[h] == b[h]
    ensures a == b
  {
  }
}

=== FILE: strings.dfy ===
/** The few Python `str` operations the modelled code relies on. */
module Strings {
  import opened Wrappers

  /** The characters for which Python's `str.isspace()` holds. */
  predicate IsSpace(c: char) {
    || c == ' '
    || ('\U{9}' <= c <= '\U{D}')
    || ('\U{1C}' <= c <= '\U{1F}')
    || c == '\U{85}' || c == '\U{A0}' || c == '\U{1680}'
    || ('\U{2000}' <= c <= '\U{200A}')
    || c == '\U{2028}' || c == '\U{2029}' || c == '\U{202F}' || c == '\U{205F}' || c == '\U{3000}'
  }

  predicate AllSpace(s: string) {
    forall i :: 0 <= i < |s| ==> IsSpace(s[i])
  }

  /** `s.lstrip()`: the suffix left after dropping leading white space. */
  function LStrip(s: string): (r: string)
    ensures |r| <= |s| && r == s[|s| - |r|..]
    ensures AllSpace(s[..|s| - |r|])
    ensures |r| == 0 || !IsSpace(r[0])
    decreases |s|
  {
    if |s| > 0 && IsSpace(s[0]) then
      var r := LStrip(s[1..]);
      assert s[..|s| - |r|] == [s[0]] + s[1..][..|s| - 1 - |r|];
      r
    else s
  }

  /** `s.rstrip()`: the prefix left after dropping trailing white space. */
  function RStrip(s: string): (r: string)
    ensures |r| <= |s| && r == s[..|r|]
    ensures AllSpace(s[|r|..])
    ensures |r| == 0 || !IsSpace(r[|r| - 1])
    decreases |s|
  {
    if |s| > 0 && IsSpace(s[|s| - 1]) then
      var r := RStrip(s[..|s| - 1]);
      assert s[|r|..] == s[..|s| - 1][|r|..] + [s[|s| - 1]];
      r
    else s
  }

  /** A string that `strip()` leaves alone. */
  predicate Stripped(s: string) {
    |s| == 0 || (!IsSpace(s[0]) && !IsSpace(s[|s| - 1]))
  }

  /** `s.strip()`. */
  function Strip(s: string): (r: string)
    ensures Stripped(r)
  {
    RStrip(LStrip(s))
  }

  lemma StrippedIsFixed(s: string)
    requires Stripped(s)
    ensures Strip(s) == s
  {
  }

  lemma {:induction false} LStripAllSpace(w: string)
    requires AllSpace(w)
    ensures LStrip(w) == ""
    decreases |w|
  {
    if |w| > 0 {
      LStripAllSpace(w[1..]);
    }
  }

  lemma {:induction false} LStripSpacePrefix(w: string, t: string)
    requires AllSpace(w)
    ensures LStrip(w + t) == LStrip(t)
    decreases |w|
  {
    if |w| > 0 {
      assert (w + t)[0] == w[0] && IsSpace(w[0]);
      assert (w + t)[1..] == w[1..] + t;
      LStripSpacePrefix(w[1..], t);
    } else {
      assert w + t == t;
    }
  }

  lemma {:induction false} RStripSpaceSuffix(t: string, w: string)
    requires AllSpace(w)
    ensures RStrip(t + w) == RStrip(t)
    decreases |w|
  {
    if |w| > 0 {
      var w' := w[..|w| - 1];
      assert (t + w)[|t + w| - 1] == w[|w| - 1] && IsSpace(w[|w| - 1]);
      assert (t + w)[..|t + w| - 1] == t + w';
      RStripSpaceSuffix(t, w');
    } else {
      assert t + w == t;
    }
  }

  lemma {:induction false} StripSpaceSuffix(s: string, w: string)
    requires AllSpace(w)
    ensures RStrip(LStrip(s + w)) == RStrip(LStrip(s))
    decreases |s|
  {
    if |s| == 0 {
      assert s + w == w;
      LStripAllSpace(w);
    } else if IsSpace(s[0]) {
      assert (s + w)[1..] == s[1..] + w;
      StripSpaceSuffix(s[1..], w);
    } else {
      RStripSpaceSuffix(s, w);
    }
  }

  /** Surrounding white space never changes what `strip()` returns. */
  lemma StripIgnoresSurroundingSpace(w1: string, s: string, w2: string)
    requires AllSpace(w1) && AllSpace(w2)
    ensures Strip(w1 + s + w2) == Strip(s)
  {
    calc {
      Strip(w1 + s + w2);
      { assert w1 + s + w2 == w1 + (s + w2); }
      RStrip(LStrip(w1 + (s + w2)));
      { LStripSpacePrefix(w1, s + w2); }
      RStrip(LStrip(s + w2));
      { StripSpaceSuffix(s, w2); }
      RStrip(LStrip(s));
    }
  }

  /** `s.rstrip(c)` for a single character `c`. */
  function RStripChar(s: string, c: char): (r: string)
    ensures |r| <= |s| && r == s[..|r|]
    ensures forall i :: |r| <= i < |s| ==> s[i] == c
    ensures |r| == 0 || r[|r| - 1] != c
    decreases |s|
  {
    if |s| > 0 && s[|s| - 1] == c then RStripChar(s[..|s| - 1], c) else s
  }

  /** `s.split(c)[-1]`: the text after the last `c`, or all of `s` when there is none. */
  function AfterLast(s: string, c: char): (r: string)
    ensures c !in r
    ensures |r| <= |s| && r == s[|s| - |r|..]
    ensures |r| == |s| || s[|s| - |r| - 1] == c
    decreases |s|
  {
    if |s| == 0 then ""
    else if s[|s| - 1] == c then ""
    else AfterLast(s[..|s| - 1], c) + [s[|s| - 1]]
  }

  /** Python's `lower()` on the ASCII letters; every other character is kept. */
  function LowerChar(c: char): char {
    if 'A' <= c <= 'Z' then (c as int + 32) as char else c
  }

  function Lower(s: string): (r: string)
    ensures |r| == |s|
    ensures forall i :: 0 <= i < |s| ==> r[i] == LowerChar(s[i])
  {
    seq(|s|, i requires 0 <= i < |s| => LowerChar(s[i]))
  }

  /** A string with no upper-case ASCII letter is its own lower-case form. */
  lemma LowerOfLowercase(s: string)
    requires forall i :: 0 <= i < |s| ==> !('A' <= s[i] <= 'Z')
    ensures Lower(s) == s
  {
  }

  /** Python's `w in s` on strings: `w` occurs somewhere in `s`. */
  predicate Contains(s: string, w: string)
    decreases |s|
  {
    w <= s || (|s| > 0 && Contains(s[1..], w))
  }

  /** `Contains` agrees with the positional reading of substring occurrence. */
  lemma {:induction false} ContainsAt(s: string, w: string, i: nat)
    requires i + |w| <= |s| && s[i..i + |w|] == w
    ensures Contains(s, w)
    decreases i
  {
    if i > 0 {
      assert s[1..][i - 1..i - 1 + |w|] == s[i..i + |w|];
      ContainsAt(s[1..], w, i - 1);
    }
  }

  predicate IsDigit(c: char) {
    '0' <= c <= '9'
  }

  predicate AllDigits(s: string) {
    forall i :: 0 <= i < |s| ==> IsDigit(s[i])
  }

  function DigitChar(d: int): (c: char)
    requires 0 <= d < 10
    ensures IsDigit(c)
  {
    ('0' as int + d) as char
  }

  function DigitValue(c: char): (d: int)
    requires IsDigit(c)
    ensures 0 <= d < 10 && DigitChar(d) == c
  {
    c as int - '0' as int
  }

  /** The number a string of decimal digits denotes. */
  function DigitsValue(s: string): nat
    requires AllDigits(s)
    decreases |s|
  {
    if |s| == 0 then 0 else DigitsValue(s[..|s| - 1]) * 10 + DigitValue(s[|s| - 1])
  }

  /** `str(n)` for a natural number. */
  function NatDecimal(n: nat): (r: string)
    ensures |r| > 0 && AllDigits(r)
    decreases n
  {
    if n < 10 then [DigitChar(n)] else NatDecimal(n / 10) + [DigitChar(n % 10)]
  }

  /** `str(n)` for an integer. */
  function IntDecimal(n: int): (r: string)
    ensures |r| > 0 && (r[0] == '-' || IsDigit(r[0])) && IsDigit(r[|r| - 1])
  {
    if n < 0 then "-" + NatDecimal(-n) else NatDecimal(n)
  }

  /** Reading back the decimal rendering of a number gives the number. */
  lemma {:induction false} DigitsValueOfDecimal(n: nat)
    ensures DigitsValue(NatDecimal(n)) == n
    decreases n
  {
    if n >= 10 {
      var prefix := NatDecimal(n / 10);
      var s := prefix + [DigitChar(n % 10)];
      assert s[..|s| - 1] == prefix;
      DigitsValueOfDecimal(n / 10);
    }
  }

  lemma DecimalHasFourDigits(n: nat)
    requires 1000 <= n <= 9999
    ensures |NatDecimal(n)| == 4
  {
    var hundreds := n / 10;
    var tens := hundreds / 10;
    var ones := tens / 10;
    assert 1 <= ones < 10 && 10 <= tens < 100 && 100 <= hundreds < 1000;
    assert |NatDecimal(ones)| == 1;
    assert |NatDecimal(tens)| == 2;
    assert |NatDecimal(hundreds)| == 3;
  }

  /**
   * Python's `int(s)` on a string: surrounding white space is ignored, then an
   * optional sign and at least one decimal digit. None stands for the ValueError.
   */
  function ParseInt(s: string): Option<int> {
    var t := Strip(s);
    if |t| > 0 && (t[0] == '-' || t[0] == '+') then
      var digits := t[1..];
      if |digits| > 0 && AllDigits(digits) then
        var magnitude: int := DigitsValue(digits);
        Some(if t[0] == '-' then -magnitude else magnitude)
      else None
    else if |t| > 0 && AllDigits(t) then Some(DigitsValue(t))
    else None
  }

  /** `int(str(n)) == n`: the parser inverts the decimal rendering. */
  lemma ParseIntOfDecimal(n: int)
    ensures ParseInt(IntDecimal(n)) == Some(n)
  {
    if n < 0 {
      ParseIntOfNegative(n);
    } else {
      ParseIntOfNatural(n);
    }
  }

  lemma ParseIntOfNatural(n: nat)
    ensures ParseInt(NatDecimal(n)) == Some(n)
  {
    var s := NatDecimal(n);
    assert IsDigit(s[0]) && IsDigit(s[|s| - 1]);
    assert Stripped(s);
    StrippedIsFixed(s);
    assert Strip(s) == s;
    assert s[0] != '-' && s[0] != '+';
    assert ParseInt(s) == Some(DigitsValue(s));
    DigitsValueOfDecimal(n);
  }

  lemma ParseIntOfNegative(n: int)
    requires n < 0
    ensures ParseInt(IntDecimal(n)) == Some(n)
  {
    var digits := NatDecimal(-n);
    var s := "-" + digits;
    assert IntDecimal(n) == s;
    assert s[0] == '-' && !IsSpace(s[0]) && s[|s| - 1] == digits[|digits| - 1];
    StrippedIsFixed(s);
    assert s[1..] == digits;
    DigitsValueOfDecimal(-n);
  }
}

=== FILE: urls.dfy ===
/** Deriving the platform username from a profile URL. */
module Urls {
  import opened Strings

  /**
   * `url.strip().rstrip("/").split("/")[-1]`: the last path segment once
   * surrounding white space and trailing slashes are gone.
   */
  function Username(url: string): (r: string)
    ensures '/' !in r
    ensures var t := TrimmedPath(url); |r| <= |t| && r == t[|t| - |r|..] && (|r| == |t| || t[|t| - |r| - 1] == '/')
  {
    var t := TrimmedPath(url);
    var r := AfterLast(t, '/');
    r
  }

  /** The URL without surrounding white space and without trailing slashes. */
  function TrimmedPath(url: string): (t: string)
    ensures |t| == 0 || t[|t| - 1] != '/'
  {
    RStripChar(Strip(url), '/')
  }

  predicate AllSlashes(s: string) {
    forall i :: 0 <= i < |s| ==> s[i] == '/'
  }

  lemma {:induction false} RStripSlashesAppended(t: string, slashes: string)
    requires AllSlashes(slashes)
    ensures RStripChar(t + slashes, '/') == RStripChar(t, '/')
    decreases |slashes|
  {
    if |slashes| > 0 {
      var shorter := slashes[..|slashes| - 1];
      assert (t + slashes)[|t + slashes| - 1] == '/';
      assert (t + slashes)[..|t + slashes| - 1] == t + shorter;
      RStripSlashesAppended(t, shorter);
    } else {
      assert t + slashes == t;
    }
  }

  /** Trailing slashes after the URL do not change the username. */
  lemma UsernameIgnoresTrailingSlashes(url: string, slashes: string)
    requires AllSlashes(slashes)
    ensures Username(Strip(url) + slashes) == Username(url)
  {
    var t := Strip(url);
    var u := t + slashes;
    if |slashes| > 0 {
      assert u[|u| - 1] == '/';
      assert |t| > 0 ==> u[0] == t[0];
      assert |t| == 0 ==> u[0] == '/';
    } else {
      assert u == t;
    }
    StrippedIsFixed(u);
    RStripSlashesAppended(t, slashes);
  }

  /** White space around the URL does not change the username. */
  lemma UsernameIgnoresSurroundingSpace(w1: string, url: string, w2: string)
    requires AllSpace(w1) && AllSpace(w2)
    ensures Username(w1 + url + w2) == Username(url)
  {
    StripIgnoresSurroundingSpace(w1, url, w2);
  }
}

=== FILE: wrappers.dfy ===
/** Failure-carrying datatypes shared by every module of the model. */
module Wrappers {

  /** A value that may be absent: Python's `None` or a falsy lookup. */
  datatype Option<+T> = None | Some(value: T)

  /** A Python exception the modelled code raises, by class, with a short reason. */
  datatype Error =
    | ValueError(reason: string)
    | TypeError(reason: string)
    | AttributeError(reason: string)

  /** The result of a computation that either returns a value or raises. */
  datatype Result<+T> = Ok(value: T) | Err(error: Error)
}
